=== FILE: README.md ===
# vnwall signal core in Dafny

`app.py` is a Streamlit page. It fetches a news feed, asks a chain of
hosted language models to label every item BUY, SELL or SIDEWAY for
XAU/USD (with a confidence score), and shows a dashboard trend: LONG,
SHORT or SIDEWAY / WAIT. This project models the decision logic of that
page and proves properties about it:

- **Loose JSON extraction** (`parse_json_array_loose`), in `LooseJson`.
  The reply is stripped of whitespace. A fenced code block is cut out
  if there is one. Then the greedy `\[.*\]` span is taken if there is
  one. Python's `str.strip`, `upper`, `in` and `split(sep, 1)` are
  modelled in `Text`. `json.loads` is an oracle `loads: string -> Decoded`.
- **The backend fallback chain** (`analyze_news_with_context_fallback`),
  in `Fallback`. It covers the two guards, the prompt lines
  `ID {idx}: {text}` joined by newlines, and the models tried in
  `MODEL_LIST` order until one reply decodes to a list. It also covers
  the bookkeeping of `last_raw` and of the last error. The chat service
  is an oracle `Backend = (model, request) -> CallOutcome`.
- **Matching and normalisation**, in `Signals`. The result map is built
  from declared ids, with later entries winning. An item is matched by
  id first, then by position. The label is upper-cased and stripped.
  The score is converted, defaulting to 0 when conversion fails, then
  clamped into [0, 0.99]. The result is the badge and the BUY/SELL
  contribution.
- **Aggregation**, in `Aggregate`. The strength is the mean of the
  contributions, or 0 with none. It maps to a trend with strict ±0.15
  thresholds.
- **Feed items**, in `News`. An item's text is the title, else the
  content. `cached_translate` has three rules. A millisecond timestamp
  is corrected to seconds.
- **The main block end to end**, in `Page`. Either no items, or an
  uncaught `int()` failure while filing results, or a dashboard with one
  card per item.

Scores are exact `real`s. Nothing is bounded by a machine width. Every
external service appears as a function parameter, so "never called" is
stated as "the result is the same whatever that function answers".

## Model

| member | source | states |
|---|---|---|
| Text.Strip | app.py:160 | `str.strip()`: the result has no surrounding whitespace; with `StripIsTrimmedInfix`, it is the unique infix between all-whitespace ends |
| Text.StripIsTrimmedInfix | app.py:219 | independent characterisation of strip: for any split s = ws + core + ws with `core` not starting or ending in whitespace, `Strip(s) == core` |
| Text.StripIdempotent | app.py:394 | stripping a stripped reason again changes nothing |
| Text.UpperStripCommute | app.py:389 | `.upper().strip()` equals `.strip().upper()` on every string (upper-casing never creates or removes whitespace) |
| Text.Upper | app.py:389 | `upper()`: same length, each character upper-cased on its own, no ASCII lower-case letter left |
| Text.Before | app.py:162-164 | `split(pat, 1)[0]`: a prefix that ends at the first occurrence of `pat`, or the whole string when `pat` does not occur; it contains no occurrence of `pat` |
| Text.After | app.py:162-164 | `split(pat, 1)[1]`: the suffix right after the first occurrence of `pat` |
| Text.SplitJoin | app.py:222 | splitting `"\n".join(lines)` on newlines gives back `lines` when no line contains a newline |
| Decimal.FromNat | app.py:221 | the index is spelled in decimal digits, with a leading zero only for 0 |
| Decimal.FromNatRoundTrip | app.py:221 | the decimal spelling of the item index reads back as that index |
| LooseJson.FenceCandidate | app.py:160-164 | the code-block cut leaves fence-free text unchanged, never contains a fence, and is always a piece of its input |
| LooseJson.FenceCandidateJson | app.py:161-162 | with "```json" first at `i`, the cut runs from just after the marker to the next fence, or to the end when none follows |
| LooseJson.FenceCandidatePlain | app.py:163-164 | without "```json" but with a fence first at `i`, the cut runs from just after it to the second fence, or to the end |
| LooseJson.FenceCandidateIdempotent | app.py:160-164 | cutting the code block out twice is cutting it out once |
| LooseJson.BracketMatch | app.py:166 | a found span starts with `[` and ends with `]` |
| LooseJson.BracketMatchLeftmostLongest | app.py:166 | for every bracket-delimited span the found one starts no later, and ends no earlier when it starts at the same place (greedy `.*` with DOTALL) |
| LooseJson.BracketCutBracketed | app.py:166-169 | the text given to `json.loads` is a piece of the candidate; bracket-delimited if any match exists, otherwise the whole candidate |
| LooseJson.BracketCut | app.py:166-169 | without a `\[.*\]` match the candidate is parsed whole; with one, the parsed text starts with `[` and ends with `]` |
| LooseJson.BracketCutSpan | app.py:166-168 | with a first `[` at `i` before a last `]` at `j`, the parsed text is exactly the inclusive substring from `i` to `j` |
| LooseJson.BracketCutNested | app.py:166-168 | the reply `Result: [[1],[2]] ok` is cut to `[[1],[2]]`, nested brackets kept |
| LooseJson.LooseText | app.py:160-169 | whatever reaches `json.loads` is a contiguous piece of the reply |
| LooseJson.LooseTextSpan | app.py:160-169 | with the stripped, fence-cut reply holding a first `[` at `i` before a last `]` at `j`, what reaches `json.loads` is exactly the inclusive substring from `i` to `j` |
| LooseJson.LooseTextOfJsonBlock | app.py:160-169 | a reply made of fence-free prose, a "```json" block holding a fence-free array, a closing fence and more prose reaches `json.loads` as exactly that array (the reply starting and ending with non-whitespace) |
| LooseJson.LooseTextOfBareArray | app.py:157-169 | a bare array text with no fence and no surrounding whitespace reaches `json.loads` unchanged |
| LooseJson.LooseTextIdempotent | app.py:157-169 | once a bracket span is found, extracting again from the extracted text changes nothing |
| LooseJson.ParseLoose | app.py:157-169 | an absent or empty reply gives None without parsing; any other reply is decided by the parser on the cut text alone |
| LooseJson.ParseLooseEmptySkipsParser | app.py:158-159 | an absent or empty reply gives the same None whatever the parser would do |
| News.ItemText | app.py:219 | the item text is the stripped title when the title is non-empty, else the stripped content when that is non-empty, else ""; it never has whitespace at either end |
| News.ItemTextOfPaddedTitle | app.py:219 | a title that is whitespace, a non-blank core and whitespace shows as exactly that core, whatever the content |
| News.Translate | app.py:147-155 | "" stays ""; target "vi" returns the text as is; a failing translation returns the text; otherwise the service's answer |
| News.TranslateVietnameseIsIdentity | app.py:150-151 | for Vietnamese the result is the text, whatever the service does |
| News.EpochFromRaw | app.py:339-340 | values above 10^12 are divided by 1000; all others are kept |
| News.EpochMillisecondsRoundTrip | app.py:338-340 | a seconds timestamp in (10^9, 10^12] and its millisecond form give the same seconds |
| News.EpochBounded | app.py:339-340 | any raw value up to 10^15 comes out no larger than 10^12 |
| News.EpochSeconds | app.py:338-343 | a truthy `createtime` decides the time; else a truthy `showtime` does; without either field the time is 0; an `int()` failure gives no time |
| Fallback.PromptLines | app.py:217-221 | one line per item, in order, line `i` being `ID i: text_i` |
| Fallback.PromptLineIdRoundTrip | app.py:221 | the id read back from every prompt line is the item's index, whatever the text |
| Fallback.UserContent | app.py:222 | when no text has a newline, the user message splits back into exactly the item lines |
| Fallback.PromptLineIdsDistinct | app.py:217-221 | no two prompt lines announce the same id, whatever the texts |
| Fallback.EnglishTexts | app.py:218-220 | one text per item, in order: the item text translated to English, "" for an item without text |
| Fallback.RequestFor | app.py:217-255 | the request carries the item count and the reason language, and its user message splits back into the items' prompt lines when no text has a newline |
| Fallback.Try | app.py:262-281 | a decoded list is a success; a raised call fails with its own message, a parser exception with the parser's message, and a missing reply or a non-list value with "AI output is not a JSON array" |
| Fallback.Chain | app.py:257-283 | a model is reported exactly when some model succeeds; a reported model is in the list and has no error; otherwise the results are empty and there is an error |
| Fallback.ChainReportsFirstSuccess | app.py:261-278 | the first succeeding model is reported, with its array and raw reply |
| Fallback.ChainIgnoresLaterModels | app.py:277-278 | models after the first success are never asked: changing their answers changes nothing |
| Fallback.ChainReportsLastFailure | app.py:279-283 | when all models fail, the error names the last model and carries its failure |
| Fallback.ChainOfNoModels | app.py:283 | with no models the error is "All models failed" |
| Fallback.Analyze | app.py:211-283 | missing client and empty list give their fixed messages; a model is reported exactly when there is no error; a reported model is from `MODEL_LIST`; no model means no results |
| Fallback.AnalyzeGuardsCallNothing | app.py:212-215 | the guards answer the same whatever the service would say |
| Fallback.AnalyzeReportsFirstSuccess | app.py:261-278 | with a client and items, the first model of `MODEL_LIST` whose reply decodes to an array is reported, with that array, its raw reply and no error |
| Fallback.AnalyzeAllFailedNamesLastModel | app.py:261-283 | with the configured list, a total failure reports "qwen-3-32b failed: …" |
| Signals.ResultMap | app.py:370-374 | every entry filed under a key declares that key as its id |
| Signals.ResultMapFails | app.py:370-374 | filing results fails exactly when some object's id cannot be converted |
| Signals.ResultMapLastWins | app.py:370-374 | the keys are exactly the declared ids, and each key holds the last entry declaring it |
| Signals.MatchEntry | app.py:380-382 | nothing is matched exactly when the index is not filed and the position holds no object; with a result map, whatever is matched is an object |
| Signals.MatchByIdThenPosition | app.py:379-382 | an item takes the last entry declaring its index; without one, the object at its position; otherwise nothing |
| Signals.LaterDuplicateWins | app.py:372-374 | of two entries declaring the same index, the later one is used |
| Signals.RawScore | app.py:390-393 | a number is taken as is; a missing key gives the 0.0 default and a value `float()` rejects gives 0.0 |
| Signals.Clamp | app.py:397 | the score lies in [0, 0.99]; in-range scores are kept; below 0 gives 0 and above 0.99 gives 0.99 |
| Signals.ClampMonotone | app.py:397 | clamping is monotone and idempotent |
| Signals.NormalizeLabel | app.py:389 | a missing signal becomes "SIDEWAY"; every label has no whitespace at either end and no ASCII lower-case letter |
| Signals.NormalizeLabelOfPadded | app.py:389 | a signal that is whitespace, a non-blank core and whitespace becomes the upper-cased core |
| Signals.PaddedBuyIsBuy | app.py:389 | the signal `buy` with any whitespace before and after it becomes `BUY` |
| Signals.NormalizeLabelIdempotent | app.py:389 | a normalised label normalises to itself |
| Signals.Normalize | app.py:384-397 | no matched object gives SIDEWAY / 0 / "No signal"; an object gives its normalised label, its converted score clamped into [0, 0.99] (in-range values kept), and its stripped reason, "No signal" when absent |
| Signals.VerdictOf | app.py:399-414 | BUY exactly for label BUY with positive score; SELL likewise; everything else is SIDEWAY |
| Signals.Contribution | app.py:399-406 | an item contributes exactly when it is BUY or SELL with positive score: +score or -score, non-zero, within ±0.99 |
| Aggregate.Contributions | app.py:377 | every collected contribution is the contribution of some item |
| Aggregate.ContributionsOfContributing | app.py:399-406 | when every item contributes, the list is their contributions one for one, in order |
| Aggregate.NeutralItemIgnored | app.py:407-414 | inserting a non-contributing item anywhere leaves the contributions unchanged |
| Aggregate.Mean | app.py:439 | the mean times the count is the sum; with no values it is 0 |
| Aggregate.MeanBounded | app.py:439 | the mean of values within ±b lies within ±b |
| Aggregate.TrendOf | app.py:440-451 | LONG exactly above 0.15, SHORT exactly below -0.15, WAIT exactly in [-0.15, 0.15] |
| Aggregate.Strength | app.py:439 | a batch in which no item is BUY or SELL with a positive score has strength 0 |
| Aggregate.StrengthBounded | app.py:439 | the strength of normalised items lies in [-0.99, 0.99] |
| Aggregate.StrengthMirror | app.py:399-451 | swapping BUY and SELL on every item negates the strength and exchanges LONG with SHORT, keeping WAIT |
| Aggregate.StrengthOfPair | app.py:439 | the strength of two contributing items is the mean of their two signed contributions |
| Aggregate.WorkedCases | app.py:439-451 | [BUY 0.7] is LONG at 0.7; [BUY 0.8, SELL 0.4] is LONG at 0.2; SIDEWAY-only and balanced inputs are WAIT at 0 |
| Page.Render | app.py:363-451 | the page aborts exactly when some id cannot be converted; otherwise card `i` shows item `i` with the verdict, score and reason normalised from its matched entry; the strength is the mean of the cards' signed BUY/SELL scores and lies in ±0.99; the trend follows from it; model and warning come from the analysis |
| Page.CardScoresAreContributions | app.py:399-439 | the signed scores read off the cards' BUY/SELL badges are exactly the `buy_sell_scores` of their signals, in order |
| Page.ItemSignals | app.py:379-397 | one normalised signal per item, in item order, each from the entry matched for that index, each score in [0, 0.99] |
| Page.Card | app.py:399-436 | a BUY badge exactly for a BUY signal with positive score, SELL likewise, and only positive scores get a BUY/SELL badge; the card shows the signal's score and reason, the item text translated to the target language (unchanged for Vietnamese) and the item's time |
| Page.Board | app.py:427-451 | one card per item, strength from the cards' signed scores and within ±0.99, trend from the strength |
| Page.RunPage | app.py:330-360 | no items means no page; otherwise one card per item with the trend of the strength; without a client every item is still shown, with no model and the missing-client warning |
| Page.RunPageShowsFirstSuccess | app.py:360-436 | with a client, when the first model whose reply decodes to an array declares only valid ids, the page names that model, shows no warning, and card i carries the signal of the entry matched for item i in that array |
| Page.AllFailedStillWaits | app.py:360-451 | when no model answers usefully, every card is SIDEWAY with score 0 and "No signal", the strength is 0 and the trend is WAIT |
| Page.CardFollowsDeclaredId | app.py:370-397 | the card for item `i` carries the score of the last entry declaring id `i` |

## Left out

- The Streamlit UI is not modelled: CSS, colours, placeholders, the debug expander and auto-refresh. What a card and the dashboard hold is modelled; their HTML is not.
- `get_news_data` is not modelled: the HTTP request, the MD5 signature and the status handling. The fetched list is an input.
- The Cerebras SDK call is the `Backend` parameter. Its temperature, token limit and system prompt text are not modelled. Only the item count and language that the system prompt is formatted from are kept.
- The GoogleTranslator call and `st.cache_data` are not modelled. The translator is a `Translator` parameter, and caching does not change the results.
- `json.loads` is the `loads` oracle. The shape of its result is reduced to what the page reads: list or not, object or not, and `id`, `signal`, `score` and `reason`.
- News.EpochSeconds: `fromtimestamp` and the timezone formatting are not modelled. Its range errors also fall on the "--:--" path, and the model does not show them.
- News.ItemText: `title` and `content` are taken to be strings or missing. A truthy non-string title or content, or a feed record that is not a dict, makes `(...).strip()` (or `.get`) raise at app.py line 345, outside any `try`, so the run ends while drawing the grey cards and before any model is asked; line 219 would raise the same way. The model has no such records.
- Signals.Normalize: `str()` of a non-string `signal` or `reason` value is folded into the string the entry holds.
- Signals.Normalize: IEEE floats are not modelled, so NaN and infinities are not covered. With a NaN score, `min(0.99, nan)` returns 0.99, so the clamp yields 0.99. A NaN score labelled BUY or SELL therefore contributes a full ±0.99, which exact reals cannot show.
- Aggregate.Mean: it is exact division of an exact sum. `statistics.mean` on floats rounds once at the end, so the ±0.15 comparison can differ in the last bit.
- Text.Upper: each character goes through `UpperChar`, which maps ASCII letters plus U+0131 and U+017F. Other Unicode case mappings, including those that change length, are not modelled.
- No response fingerprint, result cache or snapshot gate exists in `app.py`, so none is modelled.

## Uncaught id conversion

`int(r["id"])` at app.py line 374 is outside any `try`. By the time it
runs, the grey, unscored cards of lines 333-357 have been drawn into the
placeholder that line 363 re-opens. An id that `int()` rejects therefore
ends the run before any scored card or the dashboard is drawn. The
countdown and `st.rerun()` of lines 486-500 are skipped too, so the page
stops refreshing itself. `Signals.ResultMap` returns None for such an
id. `Page.Render` returns `Aborted` exactly when some object carries
one. `Page.View.Aborted` does not model what is left on screen.

=== FILE: aggregate.dfy ===
/** The dashboard's trend (app.py lines 439-451): the mean of the BUY/SELL
    contributions, 0 when there are none, classified with strict ±0.15
    thresholds. */
module Aggregate {
  import opened Wrappers
  import opened Signals

  /** The items' contributions, in item order, leaving out every item that
      contributes nothing (`buy_sell_scores`). */
  function Contributions(items: seq<ItemSignal>): (cs: seq<real>)
    ensures |cs| <= |items|
    ensures forall c :: c in cs ==> exists i :: 0 <= i < |items| && Contribution(items[i]) == Some(c)
    decreases |items|
  {
    if |items| == 0 then []
    else
      var rest := Contributions(items[1..]);
      assert forall c :: c in rest ==> exists i :: 0 <= i < |items| && Contribution(items[i]) == Some(c) by {
        forall c | c in rest
          ensures exists i :: 0 <= i < |items| && Contribution(items[i]) == Some(c)
        {
          var i :| 0 <= i < |items[1..]| && Contribution(items[1..][i]) == Some(c);
          assert Contribution(items[i + 1]) == Some(c);
        }
      }
      match Contribution(items[0])
      case Some(c) => [c] + rest
      case None => rest
  }

  function Sum(xs: seq<real>): real
    decreases |xs|
  {
    if |xs| == 0 then 0.0 else xs[0] + Sum(xs[1..])
  }

  /** `statistics.mean(xs) if xs else 0.0`, in exact arithmetic. */
  function Mean(xs: seq<real>): (avg: real)
    ensures |xs| == 0 ==> avg == 0.0
    ensures |xs| > 0 ==> avg * (|xs| as real) == Sum(xs)
  {
    if |xs| == 0 then 0.0 else Sum(xs) / (|xs| as real)
  }

  /** The dashboard's three states. */
  datatype Trend = Long | Short | Wait

  const Threshold: real := 0.15

  /** Strictly above 0.15 is LONG, strictly below -0.15 is SHORT, anything
      in between, the bounds included, is SIDEWAY / WAIT. */
  function TrendOf(avg: real): (t: Trend)
    ensures t == Long <==> avg > Threshold
    ensures t == Short <==> avg < -Threshold
    ensures t == Wait <==> -Threshold <= avg <= Threshold
  {
    if avg > Threshold then Long
    else if avg < -Threshold then Short
    else Wait
  }

  /** The dashboard strength: the mean contribution. */
  function Strength(items: seq<ItemSignal>): (r: real)
    ensures (forall i :: 0 <= i < |items| ==> Contribution(items[i]).None?) ==> r == 0.0
  {
    NeutralContributeNothing(items);
    Mean(Contributions(items))
  }

  /** A batch in which no item contributes leaves `buy_sell_scores` empty. */
  lemma {:induction false} NeutralContributeNothing(items: seq<ItemSignal>)
    ensures (forall i :: 0 <= i < |items| ==> Contribution(items[i]).None?) ==> Contributions(items) == []
    decreases |items|
  {
    if |items| > 0 && forall i :: 0 <= i < |items| ==> Contribution(items[i]).None? {
      assert forall i :: 0 <= i < |items| - 1 ==> items[1..][i] == items[i + 1];
      NeutralContributeNothing(items[1..]);
    }
  }

  /* ---------------------------------------------------------- properties */

  predicate Bounded(xs: seq<real>, bound: real) {
    forall i :: 0 <= i < |xs| ==> -bound <= xs[i] <= bound
  }

  lemma {:induction false} SumBounded(xs: seq<real>, bound: real)
    requires Bounded(xs, bound)
    ensures -bound * (|xs| as real) <= Sum(xs) <= bound * (|xs| as real)
    decreases |xs|
  {
    if |xs| > 0 {
      assert Bounded(xs[1..], bound) by {
        forall i | 0 <= i < |xs| - 1 ensures -bound <= xs[1..][i] <= bound {
          assert xs[1..][i] == xs[i + 1];
        }
      }
      SumBounded(xs[1..], bound);
      var n := (|xs| - 1) as real;
      assert Sum(xs) == xs[0] + Sum(xs[1..]);
      assert -bound <= xs[0] <= bound;
      assert bound * (|xs| as real) == bound + bound * n;
    }
  }

  /** A factor that makes a non-negative product with a positive number is
      non-negative. */
  lemma NonNegFactor(a: real, n: real)
    requires n > 0.0 && a * n >= 0.0
    ensures a >= 0.0
  {
  }

  /** The mean of values within a bound is within that bound. */
  lemma MeanBounded(xs: seq<real>, bound: real)
    requires 0.0 <= bound
    requires Bounded(xs, bound)
    ensures -bound <= Mean(xs) <= bound
  {
    if |xs| > 0 {
      SumBounded(xs, bound);
      var n := |xs| as real;
      var avg := Mean(xs);
      assert avg * n == Sum(xs);
      assert (bound - avg) * n == bound * n - avg * n;
      assert (avg + bound) * n == avg * n + bound * n;
      NonNegFactor(bound - avg, n);
      NonNegFactor(avg + bound, n);
    }
  }

  /** Every contribution of normalised items lies in [-0.99, 0.99] and is
      never zero. */
  lemma {:induction false} ContributionsBounded(items: seq<ItemSignal>)
    requires forall i :: 0 <= i < |items| ==> 0.0 <= items[i].score <= MaxScore
    ensures Bounded(Contributions(items), MaxScore)
    ensures forall i :: 0 <= i < |Contributions(items)| ==> Contributions(items)[i] != 0.0
  {
    var cs := Contributions(items);
    forall i | 0 <= i < |cs| ensures -MaxScore <= cs[i] <= MaxScore && cs[i] != 0.0 {
      assert cs[i] in cs;
      var j :| 0 <= j < |items| && Contribution(items[j]) == Some(cs[i]);
    }
  }

  /** The strength of normalised items always lies in [-0.99, 0.99]. */
  lemma StrengthBounded(items: seq<ItemSignal>)
    requires forall i :: 0 <= i < |items| ==> 0.0 <= items[i].score <= MaxScore
    ensures -MaxScore <= Strength(items) <= MaxScore
  {
    ContributionsBounded(items);
    MeanBounded(Contributions(items), MaxScore);
  }

  /** Items that contribute nothing (SIDEWAY, unknown labels, zero scores)
      are absent from the mean, wherever they stand: adding one changes
      neither the strength nor the trend. */
  lemma {:induction false} NeutralItemIgnored(before: seq<ItemSignal>, neutral: ItemSignal, after: seq<ItemSignal>)
    requires Contribution(neutral).None?
    ensures Contributions(before + [neutral] + after) == Contributions(before + after)
    decreases |before|
  {
    if |before| == 0 {
      assert before + [neutral] + after == [neutral] + after;
      assert before + after == after;
      assert ([neutral] + after)[1..] == after;
    } else {
      assert (before + [neutral] + after)[1..] == before[1..] + [neutral] + after;
      assert (before + after)[1..] == before[1..] + after;
      NeutralItemIgnored(before[1..], neutral, after);
    }
  }

  /** When every item contributes, the contributions are the items'
      contributions one for one, in item order. */
  lemma {:induction false} ContributionsOfContributing(items: seq<ItemSignal>)
    requires forall i :: 0 <= i < |items| ==> Contribution(items[i]).Some?
    ensures |Contributions(items)| == |items|
    ensures forall i :: 0 <= i < |items| ==> Contributions(items)[i] == Contribution(items[i]).value
    decreases |items|
  {
    if |items| > 0 {
      var rest := items[1..];
      assert forall i :: 0 <= i < |rest| ==> rest[i] == items[i + 1];
      ContributionsOfContributing(rest);
      ContributionsStep(items);
      var cs := Contributions(items);
      assert cs == [Contribution(items[0]).value] + Contributions(rest);
      forall i | 0 <= i < |items|
        ensures cs[i] == Contribution(items[i]).value
      {
        if i > 0 {
          assert cs[i] == Contributions(rest)[i - 1];
        }
      }
    }
  }

  /** Swapping BUY and SELL on an item. */
  function Mirror(s: ItemSignal): ItemSignal {
    if s.signal == "BUY" then s.(signal := "SELL")
    else if s.signal == "SELL" then s.(signal := "BUY")
    else s
  }

  function Negate(xs: seq<real>): (ys: seq<real>)
    ensures |ys| == |xs|
    ensures forall i :: 0 <= i < |xs| ==> ys[i] == -xs[i]
    decreases |xs|
  {
    if |xs| == 0 then [] else [-xs[0]] + Negate(xs[1..])
  }

  function MirrorAll(items: seq<ItemSignal>): (ms: seq<ItemSignal>)
    ensures |ms| == |items|
    ensures forall i :: 0 <= i < |items| ==> ms[i] == Mirror(items[i])
    decreases |items|
  {
    if |items| == 0 then [] else [Mirror(items[0])] + MirrorAll(items[1..])
  }

  /** Mirroring an item negates its contribution. */
  lemma MirrorContribution(s: ItemSignal)
    ensures Contribution(Mirror(s)) == (if Contribution(s).Some? then Some(-Contribution(s).value) else None)
  {
  }

  /** One step of `Contributions`, as a lemma. */
  lemma ContributionsStep(items: seq<ItemSignal>)
    requires |items| > 0
    ensures Contributions(items)
         == (if Contribution(items[0]).Some? then [Contribution(items[0]).value] else []) + Contributions(items[1..])
  {
  }

  lemma {:induction false} ContributionsMirror(items: seq<ItemSignal>)
    ensures Contributions(MirrorAll(items)) == Negate(Contributions(items))
    decreases |items|
  {
    if |items| > 0 {
      var ms := MirrorAll(items);
      var rest := Contributions(items[1..]);
      assert ms[1..] == MirrorAll(items[1..]);
      ContributionsMirror(items[1..]);
      ContributionsStep(items);
      ContributionsStep(ms);
      MirrorContribution(items[0]);
      var head := if Contribution(items[0]).Some? then [Contribution(items[0]).value] else [];
      NegateAppend(head, rest);
    }
  }

  lemma {:induction false} NegateAppend(xs: seq<real>, ys: seq<real>)
    ensures Negate(xs + ys) == Negate(xs) + Negate(ys)
  {
    var zs := xs + ys;
    var l := Negate(zs);
    var nx, ny := Negate(xs), Negate(ys);
    var r := nx + ny;
    assert |l| == |zs| == |r|;
    forall i | 0 <= i < |zs| ensures l[i] == r[i] {
      if i < |xs| {
        assert zs[i] == xs[i] && r[i] == nx[i];
      } else {
        var k := i - |xs|;
        assert zs[i] == ys[k] && r[i] == ny[k];
      }
    }
  }

  lemma {:induction false} SumNegate(xs: seq<real>)
    ensures Sum(Negate(xs)) == -Sum(xs)
    decreases |xs|
  {
    if |xs| > 0 {
      assert Negate(xs)[1..] == Negate(xs[1..]);
      SumNegate(xs[1..]);
    }
  }

  lemma ZeroProduct(a: real, n: real)
    requires n > 0.0 && a * n == 0.0
    ensures a == 0.0
  {
  }

  lemma MeanNegate(xs: seq<real>)
    ensures Mean(Negate(xs)) == -Mean(xs)
  {
    if |xs| > 0 {
      SumNegate(xs);
      var n := |xs| as real;
      var p := Mean(Negate(xs));
      var q := Mean(xs);
      assert p * n == -Sum(xs) && q * n == Sum(xs);
      assert (p + q) * n == p * n + q * n;
      ZeroProduct(p + q, n);
    }
  }

  /** BUY and SELL are symmetric: swapping them on every item negates the
      strength and exchanges LONG with SHORT. */
  lemma StrengthMirror(items: seq<ItemSignal>)
    ensures var mirrored := MirrorAll(items);
      && Strength(mirrored) == -Strength(items)
      && (TrendOf(Strength(items)) == Long <==> TrendOf(Strength(mirrored)) == Short)
      && (TrendOf(Strength(items)) == Wait <==> TrendOf(Strength(mirrored)) == Wait)
  {
    var cs := Contributions(items);
    ContributionsMirror(items);
    MeanNegate(cs);
    var a := Strength(items);
    assert Strength(MirrorAll(items)) == -a;
    assert TrendOf(a) == Long <==> TrendOf(-a) == Short;
  }

  /** The worked cases: [BUY 0.7] is LONG at 0.7; [BUY 0.8, SELL 0.4] is
      LONG at 0.2; [SIDEWAY 0.3, SIDEWAY 0.0] is WAIT at 0; [BUY 0.1,
      SELL 0.1] is WAIT at 0. */
  lemma WorkedCases()
    ensures Strength([ItemSignal("BUY", 0.7, "")]) == 0.7
    ensures TrendOf(0.7) == Long
    ensures Strength([ItemSignal("BUY", 0.8, ""), ItemSignal("SELL", 0.4, "")]) == 0.2
    ensures TrendOf(0.2) == Long
    ensures Strength([ItemSignal("SIDEWAY", 0.3, ""), ItemSignal("SIDEWAY", 0.0, "")]) == 0.0
    ensures Strength([ItemSignal("BUY", 0.1, ""), ItemSignal("SELL", 0.1, "")]) == 0.0
    ensures TrendOf(0.0) == Wait
  {
    StrengthOfPair(ItemSignal("BUY", 0.8, ""), ItemSignal("SELL", 0.4, ""), 0.8, -0.4);
    StrengthOfPair(ItemSignal("BUY", 0.1, ""), ItemSignal("SELL", 0.1, ""), 0.1, -0.1);
  }

  /** The strength of two contributing items is the mean of their two
      contributions. */
  lemma StrengthOfPair(x: ItemSignal, y: ItemSignal, a: real, b: real)
    requires Contribution(x) == Some(a) && Contribution(y) == Some(b)
    ensures Strength([x, y]) == (a + b) / 2.0
  {
    var items := [x, y];
    ContributionsStep(items);
    ContributionsStep(items[1..]);
    assert items[1..][1..] == [];
    assert Contributions(items) == [a, b];
    assert [a, b][1..] == [b] && [b][1..] == [];
    assert Sum([b]) == b + Sum([]);
    assert Sum([a, b]) == a + Sum([b]);
  }
}

=== FILE: decimal.dfy ===
/** Decimal rendering of a non-negative integer, as Python's `f"{idx}"`
    writes the item index into each prompt line. */
module Decimal {

  predicate IsDigit(c: char) {
    '0' <= c <= '9'
  }

  predicate AllDigits(s: string) {
    forall i :: 0 <= i < |s| ==> IsDigit(s[i])
  }

  function DigitChar(d: nat): (c: char)
    requires d < 10
    ensures IsDigit(c) && c as int - '0' as int == d
  {
    ('0' as int + d) as char
  }

  /** `str(n)` for `n >= 0`: digits only, most significant first, and no
      leading zero except for `0` itself. */
  function FromNat(n: nat): (s: string)
    ensures |s| >= 1 && AllDigits(s)
    ensures s[0] == '0' <==> n == 0
    ensures n == 0 ==> s == "0"
    decreases n
  {
    if n < 10 then [DigitChar(n)] else FromNat(n / 10) + [DigitChar(n % 10)]
  }

  /** The value of a string of decimal digits (`int(s)` on such a string). */
  function ToNat(s: string): nat
    requires AllDigits(s)
    decreases |s|
  {
    if |s| == 0 then 0
    else ToNat(s[..|s| - 1]) * 10 + (s[|s| - 1] as int - '0' as int)
  }

  /** Reading the rendered index back gives the index. */
  lemma {:induction false} FromNatRoundTrip(n: nat)
    ensures ToNat(FromNat(n)) == n
    decreases n
  {
    if n >= 10 {
      var s := FromNat(n);
      assert s[..|s| - 1] == FromNat(n / 10);
      FromNatRoundTrip(n / 10);
    }
  }
}

=== FILE: fallback.dfy ===
/** `analyze_news_with_context_fallback` (app.py lines 211-283): build one
    prompt line per item, then ask each configured model in turn until one
    reply decodes to a JSON array. The model call itself is an oracle. */
module Fallback {
  import opened Wrappers
  import opened Text
  import Decimal
  import opened LooseJson
  import opened News

  /** `MODEL_LIST`, in the order the models are tried. */
  const ModelList: seq<string> := ["gpt-oss-120b", "qwen-3-235b-a22b-instruct-2507", "qwen-3-32b"]

  const NoClientMsg := "Cerebras client not available (missing SDK or API key)"
  const EmptyNewsMsg := "Empty news list"
  const NotArrayMsg := "AI output is not a JSON array"
  const AllFailedMsg := "All models failed"

  /** What one chat-completion call produced: it raised (with the text of
      the exception), or it returned a message whose content may be None. */
  datatype CallOutcome = CallFailed(msg: string) | Replied(content: Option<string>)

  /** What is sent with every call: the system prompt is formatted from the
      item count and the reason language, the user message is the item list. */
  datatype Request = Request(itemCount: nat, language: string, userContent: string)

  /** The chat-completion service, as a function of model name and request. */
  type Backend = (string, Request) -> CallOutcome

  /** The function's four-tuple `(results, used_model, last_raw, error)`. */
  datatype Analysis = Analysis(
    results: seq<Entry>,
    usedModel: Option<string>,
    lastRaw: Option<string>,
    error: Option<string>)

  /* -------------------------------------------------------------- prompt */

  /** `f"ID {idx}: {eng}"` */
  function PromptLine(idx: nat, text: string): string {
    "ID " + Decimal.FromNat(idx) + ": " + text
  }

  /** One line per item, in item order, each carrying the item's index. */
  function PromptLines(texts: seq<string>): (lines: seq<string>)
    ensures |lines| == |texts|
    ensures forall i :: 0 <= i < |texts| ==> lines[i] == PromptLine(i, texts[i])
  {
    if |texts| == 0 then []
    else PromptLines(texts[..|texts| - 1]) + [PromptLine(|texts| - 1, texts[|texts| - 1])]
  }

  /** The longest run of decimal digits at the start of `s`. */
  function DigitRun(s: string): (d: string)
    ensures d <= s && Decimal.AllDigits(d)
    ensures |d| < |s| ==> !Decimal.IsDigit(s[|d|])
  {
    if |s| > 0 && Decimal.IsDigit(s[0]) then [s[0]] + DigitRun(s[1..]) else []
  }

  /** The id a reader of the prompt sees on a line: the number after "ID ",
      which must be followed by ':'. */
  function LineId(line: string): Option<nat> {
    if |line| < 3 || line[..3] != "ID " then None
    else
      var d := DigitRun(line[3..]);
      if |d| == 0 || |d| + 3 >= |line| || line[|d| + 3] != ':' then None
      else Some(Decimal.ToNat(d))
  }

  lemma {:induction false} DigitRunOfDigits(d: string, t: string)
    requires Decimal.AllDigits(d)
    requires |t| > 0 && !Decimal.IsDigit(t[0])
    ensures DigitRun(d + t) == d
    decreases |d|
  {
    if |d| > 0 {
      assert (d + t)[1..] == d[1..] + t;
      DigitRunOfDigits(d[1..], t);
      assert d == [d[0]] + d[1..];
    }
  }

  /** Every prompt line announces its own item index, whatever the text. */
  lemma PromptLineIdRoundTrip(idx: nat, text: string)
    ensures LineId(PromptLine(idx, text)) == Some(idx)
  {
    var d := Decimal.FromNat(idx);
    var line := PromptLine(idx, text);
    assert line[..3] == "ID ";
    assert line[3..] == d + (": " + text);
    DigitRunOfDigits(d, ": " + text);
    assert line[|d| + 3] == ':';
    Decimal.FromNatRoundTrip(idx);
  }

  /** A prompt line is a single line when its text is. */
  lemma PromptLineSingle(idx: nat, text: string)
    requires '\n' !in text
    ensures '\n' !in PromptLine(idx, text)
  {
    var d := Decimal.FromNat(idx);
    assert forall j :: 0 <= j < |d| ==> d[j] != '\n';
    var line := PromptLine(idx, text);
    forall j | 0 <= j < |line| ensures line[j] != '\n' {
      if j < 3 {
      } else if j < 3 + |d| {
        assert line[j] == d[j - 3];
      } else if j < 5 + |d| {
      } else {
        assert line[j] == text[j - 5 - |d|];
      }
    }
  }

  /** Joining single-line prompt lines with newlines and splitting the
      result on newlines gives the lines back. */
  lemma PromptLinesSplit(texts: seq<string>)
    ensures |texts| > 0 && (forall i :: 0 <= i < |texts| ==> '\n' !in texts[i]) ==>
              Split(Join(PromptLines(texts), '\n'), '\n') == PromptLines(texts)
  {
    if |texts| > 0 && (forall i :: 0 <= i < |texts| ==> '\n' !in texts[i]) {
      var lines := PromptLines(texts);
      forall k | 0 <= k < |lines| ensures '\n' !in lines[k] {
        PromptLineSingle(k, texts[k]);
      }
      SplitJoin(lines, '\n');
    }
  }

  /** `"\n".join(content_lines)`. When no item text spans several lines,
      line `i` of the user message is exactly the line for item `i`. */
  function UserContent(texts: seq<string>): (r: string)
    ensures |texts| > 0 && (forall i :: 0 <= i < |texts| ==> '\n' !in texts[i]) ==>
              Split(r, '\n') == PromptLines(texts)
  {
    PromptLinesSplit(texts);
    Join(PromptLines(texts), '\n')
  }

  /** No two items share a prompt id: distinct lines announce distinct
      indices, whatever the texts. */
  lemma PromptLineIdsDistinct(texts: seq<string>, i: nat, j: nat)
    requires i < j < |texts|
    ensures LineId(PromptLines(texts)[i]) != LineId(PromptLines(texts)[j])
    ensures PromptLines(texts)[i] != PromptLines(texts)[j]
  {
    PromptLineIdRoundTrip(i, texts[i]);
    PromptLineIdRoundTrip(j, texts[j]);
  }

  /** The English text of every item, in order (app.py lines 218-220). */
  function EnglishTexts(news: seq<NewsItem>, translator: Translator): (texts: seq<string>)
    ensures |texts| == |news|
    ensures forall i :: 0 <= i < |news| ==> texts[i] == Translate(ItemText(news[i]), "en", translator)
    ensures forall i :: 0 <= i < |news| && ItemText(news[i]) == "" ==> texts[i] == ""
  {
    seq(|news|, i requires 0 <= i < |news| => Translate(ItemText(news[i]), "en", translator))
  }

  /* --------------------------------------------------------------- chain */

  /** One model's attempt: its reply decoded to an array, or the message
      its failure is reported with. */
  datatype Attempt = Succeeded(items: seq<Entry>) | Failed(reason: string)

  /** The decoder applied to each reply: `parse_json_array_loose`, whose
      None means it gave up before parsing. */
  type Decoder = Option<string> -> Option<Decoded>

  /** The decoder the program uses, with `json.loads` as the oracle. */
  function LooseDecoder(loads: string -> Decoded): (d: Decoder)
    ensures forall s :: d(s) == ParseLoose(s, loads)
  {
    s => ParseLoose(s, loads)
  }

  /** The body of the `try` (app.py lines 263-278): a raised call, a parse
      that raises, and a parse that is not a list are all failures. */
  function Try(outcome: CallOutcome, decode: Decoder): (t: Attempt)
    ensures t.Succeeded? ==> outcome.Replied? && decode(outcome.content) == Some(Loaded(JArray(t.items)))
    ensures (outcome.Replied? && decode(outcome.content).Some? && decode(outcome.content).value.Loaded? &&
             decode(outcome.content).value.value.JArray?) ==> t.Succeeded?
    ensures outcome.CallFailed? ==> t == Failed(outcome.msg)
    ensures outcome.Replied? && decode(outcome.content).None? ==> t == Failed(NotArrayMsg)
    ensures outcome.Replied? && decode(outcome.content).Some? && decode(outcome.content).value.Raised? ==>
              t == Failed(decode(outcome.content).value.msg)
    ensures outcome.Replied? && decode(outcome.content) == Some(Loaded(JOther)) ==> t == Failed(NotArrayMsg)
  {
    match outcome
    case CallFailed(msg) => Failed(msg)
    case Replied(raw) =>
      match decode(raw)
      case Some(Loaded(JArray(xs))) => Succeeded(xs)
      case Some(Raised(e)) => Failed(e)
      case _ => Failed(NotArrayMsg)
  }

  /** Model `name` answers `req` with something that decodes to an array. */
  predicate Succeeds(name: string, req: Request, backend: Backend, decode: Decoder) {
    Try(backend(name, req), decode).Succeeded?
  }

  /** `k` is the first model of the list whose reply decodes to an array. */
  predicate FirstSuccess(models: seq<string>, k: int, req: Request, backend: Backend, decode: Decoder) {
    && 0 <= k < |models|
    && Succeeds(models[k], req, backend, decode)
    && forall j :: 0 <= j < k ==> !Succeeds(models[j], req, backend, decode)
  }

  /** The `for model_name in MODEL_LIST` loop (app.py lines 261-283), with
      `last_raw` and `last_err` carried along. */
  function Chain(models: seq<string>, req: Request, backend: Backend, decode: Decoder,
                 lastRaw: Option<string>, lastErr: Option<string>): (a: Analysis)
    ensures a.usedModel.Some? <==> exists k :: FirstSuccess(models, k, req, backend, decode)
    ensures a.usedModel.Some? ==> a.error.None? && a.usedModel.value in models
    ensures a.usedModel.None? ==> a.results == [] && a.error.Some?
    decreases |models|
  {
    if |models| == 0 then
      Analysis([], None, lastRaw, Some(OrElse(lastErr, AllFailedMsg)))
    else
      var out := backend(models[0], req);
      var raw := if out.Replied? then out.content else lastRaw;
      match Try(out, decode)
      case Succeeded(xs) =>
        assert FirstSuccess(models, 0, req, backend, decode);
        Analysis(xs, Some(models[0]), raw, None)
      case Failed(e) =>
        var a := Chain(models[1..], req, backend, decode, raw, Some(models[0] + " failed: " + e));
        assert (exists k :: FirstSuccess(models[1..], k, req, backend, decode))
           <==> (exists k :: FirstSuccess(models, k, req, backend, decode)) by {
          if k :| FirstSuccess(models[1..], k, req, backend, decode) {
            assert FirstSuccess(models, k + 1, req, backend, decode);
          }
          if k :| FirstSuccess(models, k, req, backend, decode) {
            assert k != 0;
            assert FirstSuccess(models[1..], k - 1, req, backend, decode);
          }
        }
        a
  }

  /** The first model whose reply decodes is the one reported, with its
      array and its raw reply, and with no error. */
  lemma {:induction false} ChainReportsFirstSuccess(models: seq<string>, k: nat, req: Request, backend: Backend,
                                                    decode: Decoder, lastRaw: Option<string>, lastErr: Option<string>)
    requires FirstSuccess(models, k, req, backend, decode)
    ensures Chain(models, req, backend, decode, lastRaw, lastErr)
         == Analysis(Try(backend(models[k], req), decode).items, Some(models[k]),
                     backend(models[k], req).content, None)
    decreases k
  {
    if k > 0 {
      var out := backend(models[0], req);
      assert !Succeeds(models[0], req, backend, decode);
      assert FirstSuccess(models[1..], k - 1, req, backend, decode);
      var raw := if out.Replied? then out.content else lastRaw;
      ChainReportsFirstSuccess(models[1..], k - 1, req, backend, decode, raw,
                               Some(models[0] + " failed: " + Try(out, decode).reason));
    }
  }

  /** Models after the first success are never asked: changing what they
      would answer changes nothing. */
  lemma {:induction false} ChainIgnoresLaterModels(models: seq<string>, k: nat, req: Request,
                                                   backend: Backend, backend': Backend, decode: Decoder,
                                                   lastRaw: Option<string>, lastErr: Option<string>)
    requires FirstSuccess(models, k, req, backend, decode)
    requires forall j :: 0 <= j <= k ==> backend'(models[j], req) == backend(models[j], req)
    ensures Chain(models, req, backend', decode, lastRaw, lastErr) == Chain(models, req, backend, decode, lastRaw, lastErr)
  {
    assert FirstSuccess(models, k, req, backend', decode) by {
      forall j | 0 <= j < k ensures !Succeeds(models[j], req, backend', decode) {
        assert !Succeeds(models[j], req, backend, decode);
      }
    }
    ChainReportsFirstSuccess(models, k, req, backend, decode, lastRaw, lastErr);
    ChainReportsFirstSuccess(models, k, req, backend', decode, lastRaw, lastErr);
  }

  /** When every model fails, the reported error is the last model's
      failure, prefixed with its name. */
  lemma {:induction false} ChainReportsLastFailure(models: seq<string>, req: Request, backend: Backend,
                                                   decode: Decoder, lastRaw: Option<string>, lastErr: Option<string>)
    requires |models| > 0
    requires forall j :: 0 <= j < |models| ==> Try(backend(models[j], req), decode).Failed?
    ensures Chain(models, req, backend, decode, lastRaw, lastErr).error
         == Some(models[|models| - 1] + " failed: " + Try(backend(models[|models| - 1], req), decode).reason)
    decreases |models|
  {
    var out := backend(models[0], req);
    var raw := if out.Replied? then out.content else lastRaw;
    var err := Some(models[0] + " failed: " + Try(out, decode).reason);
    if |models| > 1 {
      assert forall j :: 0 <= j < |models| - 1 ==> models[1..][j] == models[j + 1];
      ChainReportsLastFailure(models[1..], req, backend, decode, raw, err);
    }
  }

  /** An empty model list fails with the generic message. */
  lemma ChainOfNoModels(req: Request, backend: Backend, decode: Decoder)
    ensures Chain([], req, backend, decode, None, None) == Analysis([], None, None, Some(AllFailedMsg))
  {
  }

  /* ------------------------------------------------------------- analyze */

  /** The request every model is sent for a non-empty batch. */
  function RequestFor(news: seq<NewsItem>, language: string, translator: Translator): (req: Request)
    ensures req.itemCount == |news| && req.language == language
    ensures var texts := EnglishTexts(news, translator);
      |news| > 0 && (forall i :: 0 <= i < |news| ==> '\n' !in texts[i]) ==>
        Split(req.userContent, '\n') == PromptLines(texts)
  {
    Request(|news|, language, UserContent(EnglishTexts(news, translator)))
  }

  /** `analyze_news_with_context_fallback(news_list, lang_instruction)`:
      without a client, or without items, it reports why and asks no model;
      otherwise it runs the chain over `MODEL_LIST` with the prompt built
      from the items. */
  function Analyze(clientReady: bool, news: seq<NewsItem>, language: string,
                   translator: Translator, backend: Backend, loads: string -> Decoded): (a: Analysis)
    ensures !clientReady ==> a == Analysis([], None, None, Some(NoClientMsg))
    ensures clientReady && |news| == 0 ==> a == Analysis([], None, None, Some(EmptyNewsMsg))
    ensures a.usedModel.Some? <==> a.error.None?
    ensures a.usedModel.Some? ==> a.usedModel.value in ModelList
    ensures a.usedModel.None? ==> a.results == []
  {
    if !clientReady then Analysis([], None, None, Some(NoClientMsg))
    else if |news| == 0 then Analysis([], None, None, Some(EmptyNewsMsg))
    else
      Chain(ModelList, RequestFor(news, language, translator), backend, LooseDecoder(loads), None, None)
  }

  /** The guards ask no model: without a client or without items the
      outcome is the same whatever the service would answer. */
  lemma AnalyzeGuardsCallNothing(clientReady: bool, news: seq<NewsItem>, language: string,
                                 translator: Translator, backend: Backend, backend': Backend,
                                 loads: string -> Decoded)
    requires !clientReady || |news| == 0
    ensures Analyze(clientReady, news, language, translator, backend, loads)
         == Analyze(clientReady, news, language, translator, backend', loads)
  {
  }

  /** With a client and at least one item, the outcome is the chain's. */
  lemma AnalyzeRunsChain(news: seq<NewsItem>, language: string, translator: Translator,
                         backend: Backend, loads: string -> Decoded)
    requires |news| > 0
    ensures Analyze(true, news, language, translator, backend, loads)
         == Chain(ModelList, RequestFor(news, language, translator), backend, LooseDecoder(loads), None, None)
  {
  }

  /** With a client and at least one item, the first model of
      `MODEL_LIST` whose reply decodes to an array is the one reported,
      with that array, its raw reply and no error. */
  lemma AnalyzeReportsFirstSuccess(news: seq<NewsItem>, language: string, translator: Translator,
                                   backend: Backend, loads: string -> Decoded, k: nat)
    requires |news| > 0
    ensures var req := RequestFor(news, language, translator);
      FirstSuccess(ModelList, k, req, backend, LooseDecoder(loads)) ==>
        Analyze(true, news, language, translator, backend, loads)
          == Analysis(Try(backend(ModelList[k], req), LooseDecoder(loads)).items, Some(ModelList[k]),
                      backend(ModelList[k], req).content, None)
  {
    var req := RequestFor(news, language, translator);
    if FirstSuccess(ModelList, k, req, backend, LooseDecoder(loads)) {
      AnalyzeRunsChain(news, language, translator, backend, loads);
      ChainReportsFirstSuccess(ModelList, k, req, backend, LooseDecoder(loads), None, None);
    }
  }

  /** With the configured list, a complete failure reports the last model,
      "qwen-3-32b", and never the generic message. */
  lemma AnalyzeAllFailedNamesLastModel(news: seq<NewsItem>, language: string, translator: Translator,
                                       backend: Backend, loads: string -> Decoded)
    requires |news| > 0
    requires forall j :: 0 <= j < |ModelList| ==>
               Try(backend(ModelList[j], RequestFor(news, language, translator)), LooseDecoder(loads)).Failed?
    ensures Analyze(true, news, language, translator, backend, loads).error
         == Some(ModelList[2] + " failed: "
                 + Try(backend(ModelList[2], RequestFor(news, language, translator)), LooseDecoder(loads)).reason)
  {
    AnalyzeRunsChain(news, language, translator, backend, loads);
    ChainReportsLastFailure(ModelList, RequestFor(news, language, translator), backend, LooseDecoder(loads), None, None);
  }
}

=== FILE: loose_json.dfy ===
/** The loose JSON-array decoder applied to every backend reply
    (`parse_json_array_loose`): strip the reply, cut out a fenced code block
    if there is one, then take the greedy `\[.*\]` span if there is one.
    The strict JSON parse (`json.loads`) is an oracle. */
module LooseJson {
  import opened Wrappers
  import opened Text

  /** What `int(r["id"])` makes of an entry's `id` key: absent, an integer,
      or a value `int()` raises on. */
  datatype IdField = NoId | IntId(n: int) | BadId

  /** What `float(r.get("score", 0.0))` makes of an entry's `score` key:
      absent, a number, or a value `float()` raises on. */
  datatype ScoreField = NoScore | Number(x: real) | NotANumber

  /** One element of the decoded array. For an object, `signal` and
      `reason` hold `str()` of the value under that key, when the key is
      present. */
  datatype Entry =
    | NonObject
    | Object(id: IdField, signal: Option<string>, score: ScoreField, reason: Option<string>)

  /** The value `json.loads` returns: a list, or anything else. */
  datatype JsonValue = JArray(items: seq<Entry>) | JOther

  /** The outcome of `json.loads`: it raises with a message, or loads a value. */
  datatype Decoded = Raised(msg: string) | Loaded(value: JsonValue)

  const JsonFence := "```json"
  const Fence := "```"

  /* ----------------------------------------------------- fence stripping */

  /** What `s.split(pat, 1)[0]` cuts out of `raw[start..]`, described on
      `raw` itself: it runs from `start` to the first `pat` at or after
      `start`, or to the end of `raw`. */
  lemma BeforeInSuffix(raw: string, start: nat, pat: string)
    requires start <= |raw|
    ensures var r := Before(raw[start..], pat);
      && start + |r| <= |raw| && raw[start..start + |r|] == r
      && (start + |r| == |raw| || OccursAt(raw, pat, start + |r|))
      && forall j :: start <= j < start + |r| ==> !OccursAt(raw, pat, j)
  {
    var t := raw[start..];
    var r := Before(t, pat);
    assert raw[start..start + |r|] == t[..|r|];
    forall j | start <= j < start + |r|
      ensures !OccursAt(raw, pat, j)
    {
      var k := j - start;
      assert 0 <= k < |r|;
      assert !OccursAt(t, pat, k);
      if j + |pat| <= |raw| {
        SliceOfSuffix(raw, start, k, k + |pat|);
      }
    }
    if Contains(t, pat) {
      assert OccursAt(t, pat, |r|);
      SliceOfSuffix(raw, start, |r|, |r| + |pat|);
    }
  }

  /** A slice of a suffix is a slice of the whole text. */
  lemma SliceOfSuffix(raw: string, start: nat, a: nat, b: nat)
    requires start + b <= |raw| && a <= b
    ensures raw[start..][a..b] == raw[start + a..start + b]
  {
    var t := raw[start..];
    forall m | 0 <= m < b - a
      ensures t[a..b][m] == raw[start + a..start + b][m]
    {
      assert t[a + m] == raw[start + a + m];
    }
  }

  /** `After(raw, pat)` starts right after the first occurrence `i`. */
  lemma AfterFirst(raw: string, pat: string, i: nat)
    requires OccursAt(raw, pat, i)
    requires forall j :: 0 <= j < i ==> !OccursAt(raw, pat, j)
    ensures Contains(raw, pat)
    ensures After(raw, pat) == raw[i + |pat|..]
  {
    assert 0 <= i <= |raw| - |pat|;
    var r := After(raw, pat);
    var p := |raw| - |r| - |pat|;
    assert OccursAt(raw, pat, p);
    assert p == i;
  }

  /** A prefix of a suffix of `raw` is a piece of `raw`. */
  lemma PrefixOfSuffix(raw: string, tail: string, r: string)
    requires |tail| <= |raw| && tail == raw[|raw| - |tail|..]
    requires r <= tail
    ensures Contains(raw, r)
  {
    var start := |raw| - |tail|;
    assert raw[start..start + |r|] == tail[..|r|];
    assert OccursAt(raw, r, start);
  }

  /** The code-block candidate (app.py lines 160-164): the text after the
      first "```json" up to the next fence; else the text between the first
      two fences; else the text unchanged. It never contains a fence, and
      it is always a piece of its input. */
  function FenceCandidate(raw: string): (r: string)
    ensures !Contains(raw, Fence) ==> r == raw
    ensures !Contains(r, Fence)
    ensures Contains(raw, r)
  {
    JsonFenceHasFence(raw);
    if Contains(raw, JsonFence) then
      CutAfterIsPiece(raw, JsonFence);
      Before(After(raw, JsonFence), Fence)
    else if Contains(raw, Fence) then
      CutAfterIsPiece(raw, Fence);
      Before(After(raw, Fence), Fence)
    else
      assert OccursAt(raw, raw, 0);
      raw
  }

  /** Every "```json" marker starts with a fence. */
  lemma JsonFenceHasFence(raw: string)
    ensures Contains(raw, JsonFence) ==> Contains(raw, Fence)
  {
    if Contains(raw, JsonFence) {
      var i := FindFirst(raw, JsonFence).value;
      assert raw[i..i + |Fence|] == raw[i..i + |JsonFence|][..|Fence|];
      assert OccursAt(raw, Fence, i);
    }
  }

  /** What follows a marker, up to the next fence, is a fence-free piece of
      the text. */
  lemma CutAfterIsPiece(raw: string, marker: string)
    requires Contains(raw, marker)
    ensures Contains(raw, Before(After(raw, marker), Fence))
    ensures !Contains(Before(After(raw, marker), Fence), Fence)
  {
    var tail := After(raw, marker);
    PrefixOfSuffix(raw, tail, Before(tail, Fence));
  }

  /** Which cut the candidate is, by the markers present. */
  lemma FenceCandidateCases(raw: string)
    ensures Contains(raw, JsonFence) ==> FenceCandidate(raw) == Before(After(raw, JsonFence), Fence)
    ensures !Contains(raw, JsonFence) && Contains(raw, Fence) ==>
              FenceCandidate(raw) == Before(After(raw, Fence), Fence)
  {
  }

  /** With a "```json" marker whose first occurrence is at `i`, the
      candidate runs from just after the marker to the next fence, or to
      the end of the text when no fence follows. */
  lemma FenceCandidateJson(raw: string, i: nat)
    requires OccursAt(raw, JsonFence, i)
    requires forall j :: 0 <= j < i ==> !OccursAt(raw, JsonFence, j)
    ensures var r := FenceCandidate(raw); var start := i + |JsonFence|;
      && start + |r| <= |raw| && raw[start..start + |r|] == r
      && (start + |r| == |raw| || OccursAt(raw, Fence, start + |r|))
      && forall j :: start <= j < start + |r| ==> !OccursAt(raw, Fence, j)
  {
    var start := i + |JsonFence|;
    AfterFirst(raw, JsonFence, i);
    FenceCandidateCases(raw);
    BeforeInSuffix(raw, start, Fence);
  }

  /** Without a "```json" marker but with a plain fence first found at `i`,
      the candidate runs from just after that fence to the second fence, or
      to the end of the text when there is no second fence. */
  lemma FenceCandidatePlain(raw: string, i: nat)
    requires !Contains(raw, JsonFence)
    requires OccursAt(raw, Fence, i)
    requires forall j :: 0 <= j < i ==> !OccursAt(raw, Fence, j)
    ensures var r := FenceCandidate(raw); var start := i + |Fence|;
      && start + |r| <= |raw| && raw[start..start + |r|] == r
      && (start + |r| == |raw| || OccursAt(raw, Fence, start + |r|))
      && forall j :: start <= j < start + |r| ==> !OccursAt(raw, Fence, j)
  {
    var start := i + |Fence|;
    AfterFirst(raw, Fence, i);
    FenceCandidateCases(raw);
    var t := After(raw, Fence);
    assert t == raw[start..];
    assert FenceCandidate(raw) == Before(t, Fence);
    BeforeInSuffix(raw, start, Fence);
  }

  /** Cutting out the code block twice is cutting it out once. */
  lemma FenceCandidateIdempotent(raw: string)
    ensures FenceCandidate(FenceCandidate(raw)) == FenceCandidate(raw)
  {
  }

  /* -------------------------------------------------------- bracket span */

  /** A half-open span `[start, end)` of a string. */
  datatype Span = Span(start: nat, end: nat)

  /** `s[a..b]` is a match of the pattern `\[.*\]` under `re.DOTALL`: an
      opening bracket, any characters, a closing bracket. */
  predicate RegexMatch(s: string, a: int, b: int) {
    0 <= a && a + 2 <= b <= |s| && s[a] == '[' && s[b - 1] == ']'
  }

  /** The first index at or after `k` holding `c`. */
  function FirstIndexOf(s: string, c: char, k: nat): (r: Option<nat>)
    requires k <= |s|
    ensures r.Some? ==> k <= r.value < |s| && s[r.value] == c
    ensures r.Some? ==> forall j :: k <= j < r.value ==> s[j] != c
    ensures r.None? ==> forall j :: k <= j < |s| ==> s[j] != c
    decreases |s| - k
  {
    if k == |s| then None
    else if s[k] == c then Some(k)
    else FirstIndexOf(s, c, k + 1)
  }

  /** The last index below `k` holding `c`. */
  function LastIndexOf(s: string, c: char, k: nat): (r: Option<nat>)
    requires k <= |s|
    ensures r.Some? ==> r.value < k && s[r.value] == c
    ensures r.Some? ==> forall j :: r.value < j < k ==> s[j] != c
    ensures r.None? ==> forall j :: 0 <= j < k ==> s[j] != c
    decreases k
  {
    if k == 0 then None
    else if s[k - 1] == c then Some(k - 1)
    else LastIndexOf(s, c, k - 1)
  }

  /** `re.search(r"\[.*\]", s, flags=re.DOTALL)`: the span from the first
      `[` through the last `]`, present exactly when the first `[` comes
      before the last `]`. */
  function BracketMatch(s: string): (r: Option<Span>)
    ensures r.Some? ==> RegexMatch(s, r.value.start, r.value.end)
  {
    match (FirstIndexOf(s, '[', 0), LastIndexOf(s, ']', |s|))
    case (Some(i), Some(j)) => if i < j then Some(Span(i, j + 1)) else None
    case _ => None
  }

  /** The span is the one Python's backtracking matcher reports: it starts
      at the leftmost position where any match starts, and among the matches
      starting there it is the longest. */
  lemma BracketMatchLeftmostLongest(s: string, a: int, b: int)
    requires RegexMatch(s, a, b)
    ensures BracketMatch(s).Some?
    ensures BracketMatch(s).value.start <= a
    ensures BracketMatch(s).value.start == a ==> b <= BracketMatch(s).value.end
  {
    var i := FirstIndexOf(s, '[', 0);
    var j := LastIndexOf(s, ']', |s|);
    assert i.Some? && i.value <= a;
    assert j.Some? && b - 1 <= j.value;
  }

  /* ------------------------------------------------------ the whole cut */

  /** `m.group(0) if m else raw` for `m = re.search(r"\[.*\]", raw, re.DOTALL)`. */
  function BracketCut(c: string): (r: string)
    ensures BracketMatch(c).None? ==> r == c
    ensures BracketMatch(c).Some? ==> |r| >= 2 && r[0] == '[' && r[|r| - 1] == ']'
  {
    match BracketMatch(c)
    case Some(sp) => c[sp.start..sp.end]
    case None => c
  }

  /** With a match, the cut is the inclusive substring from the first `[`
      of the text to its last `]`: brackets inside the span, nested or
      not, stay in it. */
  lemma BracketCutSpan(c: string, i: nat, j: nat)
    requires i < j < |c| && c[i] == '[' && c[j] == ']'
    requires forall k :: 0 <= k < i ==> c[k] != '['
    requires forall k :: j < k < |c| ==> c[k] != ']'
    ensures BracketCut(c) == c[i..j + 1]
  {
    var f := FirstIndexOf(c, '[', 0);
    var l := LastIndexOf(c, ']', |c|);
    assert f == Some(i);
    assert l == Some(j);
  }

  /** On the reply `Result: [[1],[2]] ok` the cut keeps both inner arrays. */
  lemma BracketCutNested()
    ensures BracketCut("Result: [[1],[2]] ok") == "[[1],[2]]"
  {
    var c := "Result: [[1],[2]] ok";
    assert c == "Result: " + "[[1],[2]]" + " ok";
    BracketCutSpan(c, 8, 16);
    assert c[8..17] == "[[1],[2]]";
  }

  /** The text handed to `json.loads` (app.py lines 160-169): the stripped
      reply, narrowed to its code block, narrowed to its bracket span. */
  function LooseText(s: string): (r: string)
    ensures Contains(s, r)
  {
    CutIsPiece(s);
    BracketCut(FenceCandidate(Strip(s)))
  }

  /** What reaches `json.loads` is the bracket span of the stripped,
      fence-cut reply: from its first `[` to its last `]`, inclusive. */
  lemma LooseTextSpan(s: string, i: nat, j: nat)
    requires var c := FenceCandidate(Strip(s));
      && i < j < |c| && c[i] == '[' && c[j] == ']'
      && (forall k :: 0 <= k < i ==> c[k] != '[')
      && (forall k :: j < k < |c| ==> c[k] != ']')
    ensures LooseText(s) == FenceCandidate(Strip(s))[i..j + 1]
  {
    BracketCutSpan(FenceCandidate(Strip(s)), i, j);
  }

  /** A reply whose array sits in a "```json" block, with prose around the
      block, reaches `json.loads` as exactly the array. */
  lemma LooseTextOfJsonBlock(before: string, body: string, after: string)
    requires !Contains(before, Fence) && !Contains(body, Fence)
    requires |body| >= 2 && body[0] == '[' && body[|body| - 1] == ']'
    requires |before| > 0 && !IsSpace(before[0])
    requires |after| > 0 && !IsSpace(after[|after| - 1])
    ensures LooseText(before + JsonFence + body + Fence + after) == body
  {
    var s := before + JsonFence + body + Fence + after;
    JsonBlockPieces(s, before, body, after);
    JsonBlockStripped(s);
    JsonBlockCandidate(s, before, body);
    BracketCutOfArray(body);
  }

  /** A text with a bracket first and last is its own bracket cut. */
  lemma BracketCutOfArray(c: string)
    requires |c| >= 2 && c[0] == '[' && c[|c| - 1] == ']'
    ensures BracketCut(c) == c
  {
    assert RegexMatch(c, 0, |c|);
    BracketMatchLeftmostLongest(c, 0, |c|);
    assert c[0..|c|] == c;
  }

  /** Where the pieces of a "```json" reply sit. */
  lemma JsonBlockPieces(s: string, before: string, body: string, after: string)
    requires s == before + JsonFence + body + Fence + after
    ensures var start := |before| + |JsonFence|;
      && start + |body| + |Fence| <= |s|
      && s[..|before|] == before
      && s[|before|..start] == JsonFence
      && s[start..start + |body|] == body
      && s[start + |body|..start + |body| + |Fence|] == Fence
      && (|before| > 0 ==> s[0] == before[0])
      && (|after| > 0 ==> s[|s| - 1] == after[|after| - 1])
  {
  }

  /** A reply that starts and ends with non-whitespace is its own strip. */
  lemma JsonBlockStripped(s: string)
    requires |s| > 0 && !IsSpace(s[0]) && !IsSpace(s[|s| - 1])
    ensures Strip(s) == s
  {
    assert s[..0] == [] && s[|s|..] == [];
    StripIsTrimmedInfix(s, 0, |s|);
    assert s[0..|s|] == s;
  }

  /** The code block of a "```json" reply is the fence-free body after the
      marker. */
  lemma JsonBlockCandidate(s: string, before: string, body: string)
    requires !Contains(before, Fence) && !Contains(body, Fence)
    requires |body| >= 1 && body[|body| - 1] == ']'
    requires var start := |before| + |JsonFence|;
      && start + |body| + |Fence| <= |s|
      && s[..|before|] == before
      && s[|before|..start] == JsonFence
      && s[start..start + |body|] == body
      && s[start + |body|..start + |body| + |Fence|] == Fence
    ensures FenceCandidate(s) == body
  {
    var start := |before| + |JsonFence|;
    NoMarkerInPrefix(s, before);
    NoFenceInBody(s, start, body);
    JsonCutLength(s, |before|, |body|);
  }

  /** With the first "```json" marker at `i` and the first fence after it
      `n` characters past the marker, the candidate is those `n`
      characters. */
  lemma JsonCutLength(s: string, i: nat, n: nat)
    requires OccursAt(s, JsonFence, i)
    requires forall k :: 0 <= k < i ==> !OccursAt(s, JsonFence, k)
    requires OccursAt(s, Fence, i + |JsonFence| + n)
    requires forall j :: i + |JsonFence| <= j < i + |JsonFence| + n ==> !OccursAt(s, Fence, j)
    ensures FenceCandidate(s) == s[i + |JsonFence|..i + |JsonFence| + n]
  {
    var start, c := i + |JsonFence|, FenceCandidate(s);
    FenceCandidateJson(s, i);
    assert start + |c| <= |s| && s[start..start + |c|] == c;
    assert start + |c| == |s| || OccursAt(s, Fence, start + |c|);
    CutLength(s, start, c, n);
  }

  /** The first "```json" marker of the reply is the one after `before`. */
  lemma NoMarkerInPrefix(s: string, before: string)
    requires |before| + |JsonFence| <= |s| && s[..|before|] == before
    requires s[|before|..|before| + |JsonFence|] == JsonFence
    requires !Contains(before, Fence)
    ensures OccursAt(s, JsonFence, |before|)
    ensures forall k :: 0 <= k < |before| ==> !OccursAt(s, JsonFence, k)
  {
    forall k | 0 <= k < |before|
      ensures !OccursAt(s, JsonFence, k)
    {
      FenceInPrefix(s, before, k);
    }
  }

  /** No fence starts inside the body; one starts right after it. */
  lemma NoFenceInBody(s: string, start: nat, body: string)
    requires start + |body| + |Fence| <= |s|
    requires s[start..start + |body|] == body && s[start + |body|..start + |body| + |Fence|] == Fence
    requires !Contains(body, Fence)
    requires |body| >= 1 && body[|body| - 1] == ']'
    ensures OccursAt(s, Fence, start + |body|)
    ensures forall k :: start <= k < start + |body| ==> !OccursAt(s, Fence, k)
  {
    forall k | start <= k < start + |body|
      ensures !OccursAt(s, Fence, k)
    {
      FenceInBody(s, start, body, k);
    }
  }

  /** A cut that runs from `start` up to the first fence at or after it
      has the length of any other such run. */
  lemma CutLength(s: string, start: nat, c: string, n: nat)
    requires start + |c| <= |s| && s[start..start + |c|] == c
    requires start + |c| == |s| || OccursAt(s, Fence, start + |c|)
    requires forall j :: start <= j < start + |c| ==> !OccursAt(s, Fence, j)
    requires OccursAt(s, Fence, start + n)
    requires forall j :: start <= j < start + n ==> !OccursAt(s, Fence, j)
    ensures |c| == n && c == s[start..start + n]
  {
    assert |c| <= n;
    assert |c| >= n;
  }

  /** A slice of a slice is a slice of the whole text. */
  lemma SliceOfSlice(s: string, lo: nat, hi: nat, a: nat, b: nat)
    requires lo <= hi <= |s| && a <= b <= hi - lo
    ensures s[lo..hi][a..b] == s[lo + a..lo + b]
  {
    var t := s[lo..hi];
    forall m | 0 <= m < b - a
      ensures t[a..b][m] == s[lo + a..lo + b][m]
    {
      assert t[a + m] == s[lo + a + m];
    }
  }

  /** A "```json" marker that starts inside a fence-free prefix would put a
      fence there. */
  lemma FenceInPrefix(s: string, before: string, k: nat)
    requires |before| <= |s| && s[..|before|] == before
    requires !Contains(before, Fence)
    requires k < |before|
    requires |before| + |JsonFence| <= |s| && s[|before|..|before| + |JsonFence|] == JsonFence
    ensures !OccursAt(s, JsonFence, k)
  {
    if k + |Fence| <= |before| {
      SliceOfSlice(s, 0, |before|, k, k + |Fence|);
      assert !OccursAt(before, Fence, k);
      assert s[k..k + |Fence|] != Fence;
      if k + |JsonFence| <= |s| {
        SliceOfSlice(s, k, k + |JsonFence|, 0, |Fence|);
        assert JsonFence[0..|Fence|] == Fence;
        assert s[k..k + |JsonFence|][0..|Fence|] != Fence;
      }
    } else {
      var d := |before| - k;
      assert 1 <= d <= 3 && JsonFence[3 - d] == '`';
      assert s[|before|..|before| + |JsonFence|][3 - d] == '`';
      assert s[k + 3] == '`';
      if k + |JsonFence| <= |s| {
        assert JsonFence[3] == 'j';
        assert s[k..k + |JsonFence|][3] == s[k + 3];
        assert s[k..k + |JsonFence|][3] != JsonFence[3];
      }
    }
  }

  /** A fence cannot start inside a fence-free body that a fence follows. */
  lemma FenceInBody(s: string, start: nat, body: string, k: nat)
    requires start + |body| + |Fence| <= |s|
    requires s[start..start + |body|] == body && s[start + |body|..start + |body| + |Fence|] == Fence
    requires !Contains(body, Fence)
    requires |body| >= 1 && body[|body| - 1] == ']'
    requires start <= k < start + |body|
    ensures !OccursAt(s, Fence, k)
  {
    var o := k - start;
    if o + |Fence| <= |body| {
      SliceOfSlice(s, start, start + |body|, o, o + |Fence|);
      assert !OccursAt(body, Fence, o);
    } else {
      var p := start + |body| - 1;
      assert s[p] == s[start..start + |body|][|body| - 1] == ']';
      if k + |Fence| <= |s| {
        assert s[k..k + |Fence|][p - k] == s[p];
      }
    }
  }

  /** When the text holds a match of `\[.*\]`, the cut is a
      bracket-delimited piece of it; otherwise the cut is the text itself. */
  lemma BracketCutBracketed(c: string)
    ensures var r := BracketCut(c);
      && Contains(c, r)
      && ((exists a, b :: RegexMatch(c, a, b)) ==> |r| >= 2 && r[0] == '[' && r[|r| - 1] == ']')
      && ((forall a, b :: !RegexMatch(c, a, b)) ==> r == c)
  {
    if exists a, b :: RegexMatch(c, a, b) {
      var a, b :| RegexMatch(c, a, b);
      BracketCutOfMatch(c, a, b);
    } else {
      BracketCutOfNoMatch(c);
    }
  }

  /** With a match, the cut is the bracketed span the regex finds. */
  lemma BracketCutOfMatch(c: string, a: int, b: int)
    requires RegexMatch(c, a, b)
    ensures var r := BracketCut(c);
      Contains(c, r) && |r| >= 2 && r[0] == '[' && r[|r| - 1] == ']'
  {
    BracketMatchLeftmostLongest(c, a, b);
    var sp := BracketMatch(c).value;
    var r := BracketCut(c);
    assert r == c[sp.start..sp.end];
    assert OccursAt(c, r, sp.start);
  }

  /** Without a match, the cut is the whole text. */
  lemma BracketCutOfNoMatch(c: string)
    requires forall a, b :: !RegexMatch(c, a, b)
    ensures BracketCut(c) == c && Contains(c, c)
  {
    assert BracketMatch(c).None?;
    assert OccursAt(c, c, 0) by {
      assert c[0..|c|] == c;
    }
  }

  /** Each cut keeps a contiguous piece of what it is given, so the whole
      extraction does too. */
  lemma CutIsPiece(s: string)
    ensures Contains(s, BracketCut(FenceCandidate(Strip(s))))
  {
    var st := Strip(s);
    var c := FenceCandidate(st);
    StripIsPiece(s);
    ContainsTransitive(s, st, c);
    BracketCutBracketed(c);
    ContainsTransitive(s, c, BracketCut(c));
  }

  /** A reply that already is a bare array text (no surrounding whitespace,
      no fence, bracket first and last) reaches `json.loads` unchanged. */
  lemma LooseTextOfBareArray(s: string)
    requires |s| >= 2 && s[0] == '[' && s[|s| - 1] == ']'
    requires !Contains(s, Fence)
    ensures LooseText(s) == s
  {
    assert s[..0] == [] && s[|s|..] == [];
    StripIsTrimmedInfix(s, 0, |s|);
    assert s[0..|s|] == s;
    assert RegexMatch(s, 0, |s|);
    BracketMatchLeftmostLongest(s, 0, |s|);
    var sp := BracketMatch(s).value;
    assert sp.start == 0 && sp.end == |s|;
  }

  /** A fence-free string contains no fence in any of its pieces. */
  lemma NoFenceInPiece(c: string, a: nat, b: nat)
    requires a <= b <= |c|
    requires !Contains(c, Fence)
    ensures !Contains(c[a..b], Fence)
  {
    var t := c[a..b];
    forall j | 0 <= j <= |t| - |Fence|
      ensures !OccursAt(t, Fence, j)
    {
      assert c[a..][j..j + |Fence|] == c[a + j..a + j + |Fence|];
      assert t[j..j + |Fence|] == c[a..][j..j + |Fence|] by {
        assert c[a..][..b - a] == t;
      }
      assert !OccursAt(c, Fence, a + j);
    }
  }

  /** The bracket cut of a fence-free text is bracket-delimited and
      fence-free. */
  lemma BracketCutOfFenceFree(c: string, a: int, b: int)
    requires !Contains(c, Fence)
    requires RegexMatch(c, a, b)
    ensures var r := BracketCut(c); |r| >= 2 && r[0] == '[' && r[|r| - 1] == ']' && !Contains(r, Fence)
  {
    BracketMatchLeftmostLongest(c, a, b);
    var sp := BracketMatch(c).value;
    assert BracketCut(c) == c[sp.start..sp.end];
    NoFenceInPiece(c, sp.start, sp.end);
  }

  /** The bracket cut of a fence-free text passes through the whole
      extraction unchanged. */
  lemma BracketCutIsBare(c: string, a: int, b: int)
    requires !Contains(c, Fence)
    requires RegexMatch(c, a, b)
    ensures LooseText(BracketCut(c)) == BracketCut(c)
  {
    BracketCutOfFenceFree(c, a, b);
    LooseTextOfBareArray(BracketCut(c));
  }

  /** When a bracket span is found, extracting again from the extracted
      text changes nothing. */
  lemma LooseTextIdempotent(s: string)
    ensures BracketMatch(FenceCandidate(Strip(s))).Some? ==> LooseText(LooseText(s)) == LooseText(s)
  {
    var c := FenceCandidate(Strip(s));
    if BracketMatch(c).Some? {
      var sp := BracketMatch(c).value;
      BracketCutIsBare(c, sp.start, sp.end);
    }
  }

  /* ---------------------------------------------------------- the parse */

  /** `parse_json_array_loose(s)` (app.py lines 157-169) with `json.loads`
      as the oracle `loads`. An absent or empty reply gives None before any
      parse; otherwise the result is the oracle's verdict on the cut text. */
  function ParseLoose(s: Option<string>, loads: string -> Decoded): (r: Option<Decoded>)
    ensures r.None? <==> (s.None? || s.value == "")
    ensures r.Some? ==> r.value == loads(LooseText(s.value))
  {
    if s.None? || s.value == "" then None else Some(loads(LooseText(s.value)))
  }

  /** An absent or empty reply is never handed to the parser: the outcome is
      the same whatever `json.loads` would have done. */
  lemma ParseLooseEmptySkipsParser(s: Option<string>, loads: string -> Decoded, loads': string -> Decoded)
    requires s.None? || s.value == ""
    ensures ParseLoose(s, loads) == ParseLoose(s, loads') == None
  {
  }
}

=== FILE: news.dfy ===
/** A feed item as the page reads it: its text (title, else content), its
    translation through `cached_translate`, and its epoch time with the
    millisecond correction. */
module News {
  import opened Wrappers
  import opened Text

  /** A `createtime`/`showtime` field: falsy (absent, null, 0, ""), or a
      truthy value together with what `int()` makes of it (None when
      `int()` raises). */
  datatype TimeField = Falsy | Truthy(asInt: Option<int>)

  /** One record of the feed's `data` list. */
  datatype NewsItem = NewsItem(
    title: Option<string>,
    content: Option<string>,
    createTime: TimeField,
    showTime: TimeField)

  /** `(item.get("title") or item.get("content") or "").strip()`: the title
      when it is non-empty, else the content when that is non-empty, else
      the empty string, with surrounding whitespace removed. */
  function ItemText(item: NewsItem): (r: string)
    ensures Trimmed(r)
    ensures item.title.Some? && item.title.value != "" ==> r == Strip(item.title.value)
    ensures (item.title.None? || item.title.value == "") && item.content.Some? && item.content.value != "" ==>
              r == Strip(item.content.value)
    ensures (item.title.None? || item.title.value == "") && (item.content.None? || item.content.value == "") ==>
              r == ""
  {
    var raw :=
      if item.title.Some? && item.title.value != "" then item.title.value
      else if item.content.Some? && item.content.value != "" then item.content.value
      else "";
    Strip(raw)
  }

  /** A title padded with whitespace around a non-blank core shows as
      exactly that core, whatever the content. */
  lemma ItemTextOfPaddedTitle(before: string, core: string, after: string, item: NewsItem)
    requires AllSpace(before) && AllSpace(after)
    requires |core| > 0 && !IsSpace(core[0]) && !IsSpace(core[|core| - 1])
    requires item.title == Some(before + core + after)
    ensures ItemText(item) == core
  {
    var t := before + core + after;
    assert t[..|before|] == before;
    assert t[|before| + |core|..] == after;
    assert t[|before|..|before| + |core|] == core;
    StripIsTrimmedInfix(t, |before|, |before| + |core|);
  }

  /** The translation service: `Some(text)` on success, `None` when the
      call raises. */
  type Translator = (string, string) -> Option<string>

  /** `cached_translate(text, target)` (app.py lines 147-155): the empty
      text stays empty, Vietnamese is the feed's own language so the text
      is returned as is, and a failed call falls back to the text. */
  function Translate(text: string, target: string, translator: Translator): (r: string)
    ensures text == "" ==> r == ""
    ensures text != "" && target == "vi" ==> r == text
    ensures text != "" && target != "vi" && translator(text, target).None? ==> r == text
    ensures text != "" && target != "vi" && translator(text, target).Some? ==> r == translator(text, target).value
  {
    if text == "" then ""
    else if target == "vi" then text
    else OrElse(translator(text, target), text)
  }

  /** Whatever the service does, asking for Vietnamese never calls it and
      never changes the text. */
  lemma TranslateVietnameseIsIdentity(text: string, t1: Translator, t2: Translator)
    ensures Translate(text, "vi", t1) == Translate(text, "vi", t2) == text
  {
  }

  /** Timestamps above 10^12 are read as milliseconds. */
  const MillisecondThreshold: int := 1000000000000

  /** `if ts > 1000000000000: ts /= 1000` (app.py lines 339-340), with
      Python's true division as exact division. */
  function EpochFromRaw(ts: int): (r: real)
    ensures ts <= MillisecondThreshold ==> r == ts as real
    ensures ts > MillisecondThreshold ==> r * 1000.0 == ts as real
  {
    if ts > MillisecondThreshold then ts as real / 1000.0 else ts as real
  }

  /** A seconds timestamp after 2001-09-09 (above 10^9) and its millisecond
      spelling normalise to the same seconds value. */
  lemma EpochMillisecondsRoundTrip(secs: int)
    requires 1000000000 < secs <= MillisecondThreshold
    ensures EpochFromRaw(secs * 1000) == EpochFromRaw(secs) == secs as real
  {
  }

  /** Any millisecond timestamp up to 10^15 comes out in seconds, no larger
      than the threshold itself. */
  lemma EpochBounded(ts: int)
    requires ts <= 1000 * MillisecondThreshold
    ensures EpochFromRaw(ts) <= MillisecondThreshold as real
  {
  }

  /** `int(item.get("createtime") or item.get("showtime") or 0)` followed by
      the millisecond correction (app.py lines 338-340); None is the path
      where `int()` raises and the page shows "--:--". */
  function EpochSeconds(item: NewsItem): (r: Option<real>)
    ensures item.createTime.Truthy? ==>
              r == (if item.createTime.asInt.Some? then Some(EpochFromRaw(item.createTime.asInt.value)) else None)
    ensures item.createTime.Falsy? && item.showTime.Truthy? ==>
              r == (if item.showTime.asInt.Some? then Some(EpochFromRaw(item.showTime.asInt.value)) else None)
    ensures item.createTime.Falsy? && item.showTime.Falsy? ==> r == Some(0.0)
  {
    var field :=
      if item.createTime.Truthy? then item.createTime
      else if item.showTime.Truthy? then item.showTime
      else Truthy(Some(0));
    match field.asInt
    case Some(ts) => Some(EpochFromRaw(ts))
    case None => None
  }
}

=== FILE: page.dfy ===
/** One run of the page's main block (app.py lines 326-451): fetch result
    in, analysis through the fallback chain, items matched and normalised,
    dashboard out. Rendering to HTML is not modelled; what is shown is. */
module Page {
  import opened Wrappers
  import opened LooseJson
  import opened News
  import opened Fallback
  import opened Signals
  import opened Aggregate

  /** One news card: display text, epoch seconds (None shows "--:--"),
      badge, score and reason. */
  datatype ItemView = ItemView(text: string, seconds: Option<real>, verdict: Verdict, score: real, reason: string)

  /** The dashboard box and the cards under it; `warning` is the
      "AI error" banner. */
  datatype Dashboard = Dashboard(
    items: seq<ItemView>,
    strength: real,
    trend: Trend,
    usedModel: Option<string>,
    warning: Option<string>)

  /** What the main block ends with: no items, an uncaught exception while
      filing results by id, or the dashboard. */
  datatype View = NoData | Aborted | Shown(dashboard: Dashboard)

  /** `"Vietnamese" if target_lang == "vi" else "English"` */
  function LanguageInstruction(target: string): string {
    if target == "vi" then "Vietnamese" else "English"
  }

  /** The normalised signal of every item, in item order. */
  function ItemSignals(n: nat, results: seq<Entry>, m: map<int, Entry>): (sigs: seq<ItemSignal>)
    ensures |sigs| == n
    ensures forall i :: 0 <= i < n ==> sigs[i] == Normalize(MatchEntry(results, m, i))
    ensures forall i :: 0 <= i < n ==> 0.0 <= sigs[i].score <= MaxScore
  {
    seq(n, i requires 0 <= i < n => Normalize(MatchEntry(results, m, i)))
  }

  /** The card for one item carrying signal `s`. */
  function Card(item: NewsItem, s: ItemSignal, target: string, translator: Translator): (c: ItemView)
    ensures c.verdict != Sideway ==> c.score > 0.0
    ensures c.verdict == Buy <==> s.signal == "BUY" && s.score > 0.0
    ensures c.verdict == Sell <==> s.signal == "SELL" && s.score > 0.0
    ensures c.score == s.score && c.reason == s.reason
    ensures c.text == Translate(ItemText(item), target, translator)
    ensures target == "vi" ==> c.text == ItemText(item)
    ensures c.seconds == EpochSeconds(item)
  {
    ItemView(Translate(ItemText(item), target, translator), EpochSeconds(item), VerdictOf(s), s.score, s.reason)
  }

  /** The signed scores the dashboard shows cards for, read off the cards
      themselves: `+score` for a BUY badge, `-score` for a SELL badge. */
  function CardScores(cards: seq<ItemView>): seq<real>
    decreases |cards|
  {
    if |cards| == 0 then []
    else
      var rest := CardScores(cards[1..]);
      match cards[0].verdict
      case Buy => [cards[0].score] + rest
      case Sell => [-cards[0].score] + rest
      case Sideway => rest
  }

  /** Cards that show the verdicts and scores of a batch of signals carry
      exactly that batch's contributions. */
  lemma {:induction false} CardScoresAreContributions(cards: seq<ItemView>, sigs: seq<ItemSignal>)
    requires |cards| == |sigs|
    requires forall i :: 0 <= i < |sigs| ==> cards[i].verdict == VerdictOf(sigs[i]) && cards[i].score == sigs[i].score
    ensures CardScores(cards) == Contributions(sigs)
    decreases |sigs|
  {
    if |sigs| > 0 {
      assert forall i :: 0 <= i < |sigs| - 1 ==> cards[1..][i] == cards[i + 1] && sigs[1..][i] == sigs[i + 1];
      CardScoresAreContributions(cards[1..], sigs[1..]);
    }
  }

  /** The dashboard for items carrying the signals `sigs`: one card per
      item, and the strength of the signals. */
  function Board(news: seq<NewsItem>, sigs: seq<ItemSignal>, target: string, translator: Translator,
                 usedModel: Option<string>, warning: Option<string>): (d: Dashboard)
    requires |sigs| == |news|
    requires forall i :: 0 <= i < |sigs| ==> 0.0 <= sigs[i].score <= MaxScore
    ensures |d.items| == |news|
    ensures forall i :: 0 <= i < |news| ==> d.items[i] == Card(news[i], sigs[i], target, translator)
    ensures d.strength == Mean(CardScores(d.items))
    ensures -MaxScore <= d.strength <= MaxScore
    ensures d.trend == TrendOf(d.strength)
    ensures d.usedModel == usedModel && d.warning == warning
  {
    StrengthBounded(sigs);
    var cards := Cards(news, sigs, target, translator);
    var strength := Strength(sigs);
    Dashboard(cards, strength, TrendOf(strength), usedModel, warning)
  }

  /** The cards of the items, in item order; their badges carry the
      batch's contributions. */
  function Cards(news: seq<NewsItem>, sigs: seq<ItemSignal>, target: string, translator: Translator): (cards: seq<ItemView>)
    requires |sigs| == |news|
    ensures |cards| == |news|
    ensures forall i :: 0 <= i < |news| ==> cards[i] == Card(news[i], sigs[i], target, translator)
    ensures CardScores(cards) == Contributions(sigs)
  {
    var cards := seq(|news|, i requires 0 <= i < |news| => Card(news[i], sigs[i], target, translator));
    assert forall i :: 0 <= i < |sigs| ==> cards[i].verdict == VerdictOf(sigs[i]) && cards[i].score == sigs[i].score;
    CardScoresAreContributions(cards, sigs);
    cards
  }

  /** Phase 3 (app.py lines 363-451) for a non-empty feed and the
      analysis of it. */
  function Render(news: seq<NewsItem>, a: Analysis, target: string, translator: Translator): (v: View)
    ensures v.Aborted? <==> exists k :: 0 <= k < |a.results| && HasBadId(a.results[k])
    ensures v.Shown? <==> ResultMap(a.results).Some?
    ensures v.Shown? ==> |v.dashboard.items| == |news|
    ensures v.Shown? ==> forall i :: 0 <= i < |news| ==>
              v.dashboard.items[i] == Card(news[i], Normalize(MatchEntry(a.results, ResultMap(a.results).value, i)),
                                           target, translator)
    ensures v.Shown? ==> v.dashboard.strength == Mean(CardScores(v.dashboard.items))
    ensures v.Shown? ==> -MaxScore <= v.dashboard.strength <= MaxScore
    ensures v.Shown? ==> v.dashboard.trend == TrendOf(v.dashboard.strength)
    ensures v.Shown? ==> forall i :: 0 <= i < |news| ==> 0.0 <= v.dashboard.items[i].score <= MaxScore
    ensures v.Shown? ==> v.dashboard.usedModel == a.usedModel && v.dashboard.warning == a.error
  {
    ResultMapFails(a.results);
    match ResultMap(a.results)
    case None => Aborted
    case Some(m) =>
      Shown(Board(news, ItemSignals(|news|, a.results, m), target, translator, a.usedModel, a.error))
  }

  /** The main block from the fetched items on: nothing to show without
      items; otherwise analyse them and render. Without a client the page
      still shows every item, with the reason no model was asked. */
  function RunPage(news: seq<NewsItem>, clientReady: bool, target: string, translator: Translator,
                   backend: Backend, loads: string -> Decoded): (v: View)
    ensures v.NoData? <==> |news| == 0
    ensures v.Shown? ==> |v.dashboard.items| == |news| && v.dashboard.trend == TrendOf(v.dashboard.strength)
    ensures |news| > 0 && !clientReady ==>
              v.Shown? && v.dashboard.usedModel.None? && v.dashboard.warning == Some(NoClientMsg)
  {
    if |news| == 0 then NoData
    else Render(news, Analyze(clientReady, news, LanguageInstruction(target), translator, backend, loads),
                target, translator)
  }

  /** With a client ready, the page shows what the first model of
      `MODEL_LIST` whose reply decodes to an array answered: that model is
      named, no warning is shown, and every card carries the signal of the
      entry matched for its item in that answer. */
  lemma RunPageShowsFirstSuccess(news: seq<NewsItem>, target: string, translator: Translator,
                                 backend: Backend, loads: string -> Decoded, k: nat)
    requires |news| > 0
    ensures var req := RequestFor(news, LanguageInstruction(target), translator);
      FirstSuccess(ModelList, k, req, backend, LooseDecoder(loads)) ==>
        var xs := Try(backend(ModelList[k], req), LooseDecoder(loads)).items;
        (forall j :: 0 <= j < |xs| ==> !HasBadId(xs[j])) ==>
          var v := RunPage(news, true, target, translator, backend, loads);
          && ResultMap(xs).Some?
          && v.Shown?
          && v.dashboard.usedModel == Some(ModelList[k])
          && v.dashboard.warning.None?
          && |v.dashboard.items| == |news|
          && forall i :: 0 <= i < |news| ==>
               v.dashboard.items[i] == Card(news[i], Normalize(MatchEntry(xs, ResultMap(xs).value, i)), target, translator)
  {
    var req := RequestFor(news, LanguageInstruction(target), translator);
    AnalyzeReportsFirstSuccess(news, LanguageInstruction(target), translator, backend, loads, k);
    if FirstSuccess(ModelList, k, req, backend, LooseDecoder(loads)) {
      var xs := Try(backend(ModelList[k], req), LooseDecoder(loads)).items;
      ResultMapFails(xs);
    }
  }

  /** Even when no model answers usefully, the page still resolves to a
      trend: every item falls back to SIDEWAY with score 0 and reason
      "No signal", the strength is 0 and the trend is SIDEWAY / WAIT. */
  lemma AllFailedStillWaits(news: seq<NewsItem>, clientReady: bool, target: string, translator: Translator,
                            backend: Backend, loads: string -> Decoded)
    requires |news| > 0
    requires Analyze(clientReady, news, LanguageInstruction(target), translator, backend, loads).usedModel.None?
    ensures var v := RunPage(news, clientReady, target, translator, backend, loads);
      && v.Shown?
      && v.dashboard.strength == 0.0
      && v.dashboard.trend == Wait
      && v.dashboard.usedModel.None?
      && v.dashboard.warning.Some?
      && forall i :: 0 <= i < |news| ==>
           v.dashboard.items[i].verdict == Sideway && v.dashboard.items[i].score == 0.0 &&
           v.dashboard.items[i].reason == DefaultReason
  {
    var a := Analyze(clientReady, news, LanguageInstruction(target), translator, backend, loads);
    assert a.results == [];
    var m: map<int, Entry> := map[];
    assert ResultMap(a.results) == Some(m);
    var sigs := ItemSignals(|news|, a.results, m);
    assert forall i :: 0 <= i < |news| ==> sigs[i] == ItemSignal(DefaultLabel, 0.0, DefaultReason);
  }

  /** The item a model scored by its declared index is the item the card
      shows that score for: an entry declaring id `i` (the last one, if
      several do) decides card `i`. */
  lemma CardFollowsDeclaredId(news: seq<NewsItem>, a: Analysis, target: string, translator: Translator,
                              i: nat, k: nat)
    requires i < |news|
    requires forall j :: 0 <= j < |a.results| ==> !HasBadId(a.results[j])
    requires LastWithId(a.results, k, i)
    ensures Render(news, a, target, translator).Shown?
    ensures Render(news, a, target, translator).dashboard.items[i].score
         == Normalize(Some(a.results[k])).score
  {
    ResultMapFails(a.results);
    var m := ResultMap(a.results).value;
    MatchByIdThenPosition(a.results, m, i);
    var r := MatchEntry(a.results, m, i);
    var k' :| LastWithId(a.results, k', i) && r == Some(a.results[k']);
    assert k' == k;
  }
}

=== FILE: signals.dfy ===
/** Mapping the decoded array back to the feed items, and normalising each
    item's signal (app.py lines 370-414). */
module Signals {
  import opened Wrappers
  import opened Text
  import opened LooseJson

  /* ------------------------------------------------------------ matching */

  /** Entry `e` is an object whose `id` converts to `n`. */
  predicate HasId(e: Entry, n: int) {
    e.Object? && e.id == IntId(n)
  }

  /** Entry `e` is an object whose `id` makes `int()` raise. */
  predicate HasBadId(e: Entry) {
    e.Object? && e.id.BadId?
  }

  /** `k` is the last position whose entry declares id `n`. */
  predicate LastWithId(results: seq<Entry>, k: int, n: int) {
    && 0 <= k < |results|
    && HasId(results[k], n)
    && forall j :: k < j < |results| ==> !HasId(results[j], n)
  }

  /** `result_map` (app.py lines 370-374): every object with an `id` is
      filed under `int(id)`, a later entry overwriting an earlier one. A
      malformed id makes `int()` raise, which nothing catches: None. */
  function ResultMap(results: seq<Entry>): (r: Option<map<int, Entry>>)
    ensures r.Some? ==> forall n :: n in r.value ==> HasId(r.value[n], n)
    decreases |results|
  {
    if |results| == 0 then Some(map[])
    else
      var last := results[|results| - 1];
      match ResultMap(results[..|results| - 1])
      case None => None
      case Some(m) =>
        if HasBadId(last) then None
        else if last.Object? && last.id.IntId? then Some(m[last.id.n := last])
        else Some(m)
  }

  /** The map is missing exactly when some entry's id cannot be converted. */
  lemma {:induction false} ResultMapFails(results: seq<Entry>)
    ensures ResultMap(results).None? <==> exists k :: 0 <= k < |results| && HasBadId(results[k])
    decreases |results|
  {
    if |results| > 0 {
      var init := results[..|results| - 1];
      ResultMapFails(init);
      assert forall k :: 0 <= k < |init| ==> init[k] == results[k];
    }
  }

  /** The keys are exactly the converted ids, and each key holds the last
      entry declaring it. */
  lemma {:induction false} ResultMapLastWins(results: seq<Entry>)
    requires ResultMap(results).Some?
    ensures var m := ResultMap(results).value;
      && (forall n :: n in m <==> exists k :: 0 <= k < |results| && HasId(results[k], n))
      && (forall n :: n in m ==> exists k :: LastWithId(results, k, n) && m[n] == results[k])
    decreases |results|
  {
    if |results| > 0 {
      var init := results[..|results| - 1];
      var last := results[|results| - 1];
      assert forall k :: 0 <= k < |init| ==> init[k] == results[k];
      var m0 := ResultMap(init).value;
      var m := ResultMap(results).value;
      ResultMapLastWins(init);
      forall n | n in m
        ensures exists k :: LastWithId(results, k, n) && m[n] == results[k]
      {
        if HasId(last, n) {
          assert LastWithId(results, |results| - 1, n);
        } else {
          var k :| LastWithId(init, k, n) && m0[n] == init[k];
          assert LastWithId(results, k, n);
        }
      }
      forall n | exists k :: 0 <= k < |results| && HasId(results[k], n)
        ensures n in m
      {
        var k :| 0 <= k < |results| && HasId(results[k], n);
        if k < |init| { assert HasId(init[k], n); }
      }
    }
  }

  /** The entry for item `idx` (app.py lines 380-382): the one filed under
      `idx` if any, else the entry at position `idx` if that is an object,
      else none. */
  function MatchEntry(results: seq<Entry>, m: map<int, Entry>, idx: nat): (r: Option<Entry>)
    ensures (forall n :: n in m ==> HasId(m[n], n)) && r.Some? ==> r.value.Object?
    ensures r.None? <==> idx !in m && (idx >= |results| || results[idx].NonObject?)
  {
    if idx in m then Some(m[idx])
    else if idx < |results| && results[idx].Object? then Some(results[idx])
    else None
  }

  /** Matching by declared id first, then by position: the last entry that
      declares the item's index wins; without one, the object at the item's
      position is used; an id outside the batch is never consulted. */
  lemma MatchByIdThenPosition(results: seq<Entry>, m: map<int, Entry>, idx: nat)
    requires ResultMap(results) == Some(m)
    ensures var r := MatchEntry(results, m, idx);
      && ((exists k :: 0 <= k < |results| && HasId(results[k], idx)) ==>
            exists k :: LastWithId(results, k, idx) && r == Some(results[k]))
      && ((forall k :: 0 <= k < |results| ==> !HasId(results[k], idx)) ==>
            r == (if idx < |results| && results[idx].Object? then Some(results[idx]) else None))
      && (r.Some? ==> r.value.Object?)
  {
    ResultMapLastWins(results);
    var r := MatchEntry(results, m, idx);
    if exists k :: 0 <= k < |results| && HasId(results[k], idx) {
      assert idx in m;
      var k :| LastWithId(results, k, idx) && m[idx] == results[k];
      assert r == Some(results[k]);
    } else {
      assert idx !in m;
    }
  }

  /** With the same input array, the entry a later element declares for an
      index replaces any earlier one. */
  lemma LaterDuplicateWins(results: seq<Entry>, m: map<int, Entry>, i: nat, j: nat, idx: nat)
    requires ResultMap(results) == Some(m)
    requires i < j < |results| && HasId(results[i], idx) && HasId(results[j], idx)
    requires forall k :: j < k < |results| ==> !HasId(results[k], idx)
    ensures MatchEntry(results, m, idx) == Some(results[j])
  {
    ResultMapLastWins(results);
    var k :| LastWithId(results, k, idx) && m[idx] == results[k];
    assert k == j;
  }

  /* ------------------------------------------------------- normalisation */

  /** One item's signal after normalisation. */
  datatype ItemSignal = ItemSignal(signal: string, score: real, reason: string)

  const DefaultLabel := "SIDEWAY"
  const DefaultReason := "No signal"
  const MaxScore: real := 0.99

  /** `max(0.0, min(0.99, score))` */
  function Clamp(x: real): (r: real)
    ensures 0.0 <= r <= MaxScore
    ensures 0.0 <= x <= MaxScore ==> r == x
    ensures x < 0.0 ==> r == 0.0
    ensures x > MaxScore ==> r == MaxScore
  {
    var low := if x < MaxScore then x else MaxScore;
    if low > 0.0 then low else 0.0
  }

  /** Clamping is idempotent and monotone. */
  lemma ClampMonotone(x: real, y: real)
    requires x <= y
    ensures Clamp(x) <= Clamp(y)
    ensures Clamp(Clamp(x)) == Clamp(x)
  {
  }

  /** `str(r.get("signal", "SIDEWAY")).upper().strip()` */
  function NormalizeLabel(raw: Option<string>): (r: string)
    ensures raw.None? ==> r == DefaultLabel
    ensures Trimmed(r)
    ensures forall j :: 0 <= j < |r| ==> !('a' <= r[j] <= 'z')
  {
    var x := OrElse(raw, DefaultLabel);
    UpperStripNoLower(x);
    MissingLabel(raw);
    Strip(Upper(x))
  }

  /** A missing signal normalises to the default label. */
  lemma MissingLabel(raw: Option<string>)
    ensures raw.None? ==> Strip(Upper(OrElse(raw, DefaultLabel))) == DefaultLabel
  {
    if raw.None? {
      DefaultLabelNormal();
    }
  }

  /** An upper-cased, stripped string holds no ASCII lower-case letter. */
  lemma UpperStripNoLower(x: string)
    ensures forall j :: 0 <= j < |Strip(Upper(x))| ==> !('a' <= Strip(Upper(x))[j] <= 'z')
  {
    var u := Upper(x);
    StripIsPiece(u);
    NoLowerInPiece(u, Strip(u));
  }

  /** The default label is already upper case and unpadded. */
  lemma DefaultLabelNormal()
    ensures Strip(Upper(DefaultLabel)) == DefaultLabel
  {
    var d := DefaultLabel;
    assert forall j :: 0 <= j < |d| ==> 'A' <= d[j] <= 'Z';
    UpperOfUpperCase(d);
    UpperStripsNothing(d);
  }

  /** Upper-casing leaves an upper-case ASCII string unchanged. */
  lemma UpperOfUpperCase(s: string)
    requires forall j :: 0 <= j < |s| ==> 'A' <= s[j] <= 'Z'
    ensures Upper(s) == s
  {
    assert forall j :: 0 <= j < |s| ==> Upper(s)[j] == UpperChar(s[j]) == s[j];
  }

  /** A signal that is whitespace, a core and whitespace normalises to the
      upper-cased core: `" buy "` becomes `"BUY"`. */
  lemma NormalizeLabelOfPadded(before: string, core: string, after: string)
    requires AllSpace(before) && AllSpace(after)
    requires |core| > 0 && !IsSpace(core[0]) && !IsSpace(core[|core| - 1])
    ensures NormalizeLabel(Some(before + core + after)) == Upper(core)
  {
    var t := before + core + after;
    assert t[..|before|] == before;
    assert t[|before| + |core|..] == after;
    assert t[|before|..|before| + |core|] == core;
    StripIsTrimmedInfix(t, |before|, |before| + |core|);
    UpperStripCommute(t);
    UpperStripsNothing(core);
  }

  /** Upper-casing a string without surrounding whitespace adds none, so
      stripping it changes nothing. */
  lemma UpperStripsNothing(core: string)
    requires |core| > 0 && !IsSpace(core[0]) && !IsSpace(core[|core| - 1])
    ensures Strip(Upper(core)) == Upper(core)
  {
    var u := Upper(core);
    assert u[0] == UpperChar(core[0]) && u[|u| - 1] == UpperChar(core[|core| - 1]);
    assert AllSpace(u[..0]) && AllSpace(u[|u|..]);
    StripIsTrimmedInfix(u, 0, |u|);
    assert u[0..|u|] == u;
  }

  /** A reply's `"buy"`, padded with any whitespace, becomes a BUY label. */
  lemma PaddedBuyIsBuy(before: string, after: string)
    requires AllSpace(before) && AllSpace(after)
    ensures NormalizeLabel(Some(before + "buy" + after)) == "BUY"
  {
    var core := "buy";
    assert core[0] == 'b' && core[|core| - 1] == 'y';
    NormalizeLabelOfPadded(before, core, after);
    UpperBuy();
  }

  lemma UpperBuy()
    ensures Upper("buy") == "BUY"
  {
    var u := Upper("buy");
    assert u[0] == UpperChar('b') == 'B';
    assert u[1] == UpperChar('u') == 'U';
    assert u[2] == UpperChar('y') == 'Y';
  }

  /** A piece of an upper-cased string holds no ASCII lower-case letter. */
  lemma NoLowerInPiece(u: string, p: string)
    requires forall j :: 0 <= j < |u| ==> !('a' <= u[j] <= 'z')
    requires Contains(u, p)
    ensures forall j :: 0 <= j < |p| ==> !('a' <= p[j] <= 'z')
  {
    var i :| 0 <= i <= |u| - |p| && OccursAt(u, p, i);
    forall j | 0 <= j < |p| ensures !('a' <= p[j] <= 'z') {
      assert p[j] == u[i..i + |p|][j] == u[i + j];
    }
  }

  lemma {:induction false} UpperIdempotent(s: string)
    ensures Upper(Upper(s)) == Upper(s)
    decreases |s|
  {
    if s != [] {
      UpperCharIdempotent(s[0]);
      UpperIdempotent(s[1..]);
    }
  }

  /** A normalised label normalises to itself: it is upper case and has no
      surrounding whitespace. */
  lemma NormalizeLabelIdempotent(raw: Option<string>)
    ensures NormalizeLabel(Some(NormalizeLabel(raw))) == NormalizeLabel(raw)
  {
    var x := OrElse(raw, DefaultLabel);
    var u := Upper(x);
    calc {
      Strip(Upper(Strip(u)));
      { UpperStripCommute(u); }
      Strip(Strip(Upper(u)));
      { UpperIdempotent(x); }
      Strip(Strip(u));
      { StripIdempotent(u); }
      Strip(u);
    }
  }

  /** `float(r.get("score", 0.0))`, with 0.0 when `float()` raises. */
  function RawScore(f: ScoreField): (x: real)
    ensures f.Number? ==> x == f.x
    ensures !f.Number? ==> x == 0.0
  {
    match f
    case Number(x) => x
    case _ => 0.0
  }

  /** The per-item values of app.py lines 384-397: defaults when no object
      was matched; otherwise the normalised label, the converted score and
      the stripped reason; the score then clamped into [0, 0.99]. */
  function Normalize(r: Option<Entry>): (s: ItemSignal)
    ensures 0.0 <= s.score <= MaxScore
    ensures (r.None? || r.value.NonObject?) ==> s == ItemSignal(DefaultLabel, 0.0, DefaultReason)
    ensures r.Some? && r.value.Object? ==>
              s.signal == NormalizeLabel(r.value.signal) &&
              s.score == Clamp(RawScore(r.value.score)) &&
              s.reason == Strip(OrElse(r.value.reason, DefaultReason))
    ensures r.Some? && r.value.Object? && 0.0 <= RawScore(r.value.score) <= MaxScore ==>
              s.score == RawScore(r.value.score)
  {
    match r
    case Some(Object(_, signal, score, reason)) =>
      ItemSignal(NormalizeLabel(signal), Clamp(RawScore(score)), Strip(OrElse(reason, DefaultReason)))
    case _ =>
      ItemSignal(DefaultLabel, Clamp(0.0), DefaultReason)
  }

  /* ------------------------------------------------------------ verdicts */

  /** The badge an item gets (app.py lines 399-414). */
  datatype Verdict = Buy | Sell | Sideway

  /** BUY or SELL counts only with a positive score; every other label,
      and a zero score, is SIDEWAY. */
  function VerdictOf(s: ItemSignal): (v: Verdict)
    ensures v == Buy <==> s.signal == "BUY" && s.score > 0.0
    ensures v == Sell <==> s.signal == "SELL" && s.score > 0.0
  {
    if s.signal == "BUY" && s.score > 0.0 then Buy
    else if s.signal == "SELL" && s.score > 0.0 then Sell
    else Sideway
  }

  /** What the item adds to `buy_sell_scores`: `+score` for BUY, `-score`
      for SELL, nothing otherwise. */
  function Contribution(s: ItemSignal): (c: Option<real>)
    ensures c.Some? <==> (s.signal == "BUY" || s.signal == "SELL") && s.score > 0.0
    ensures c.Some? && s.signal == "BUY" ==> c.value == s.score
    ensures c.Some? && s.signal == "SELL" ==> c.value == -s.score
    ensures c.Some? && s.score <= MaxScore ==> c.value != 0.0 && -MaxScore <= c.value <= MaxScore
  {
    match VerdictOf(s)
    case Buy => Some(s.score)
    case Sell => Some(-s.score)
    case Sideway => None
  }
}

=== FILE: text.dfy ===
/** The string operations the program relies on, written out for Python's
    semantics: `str.strip()`, `str.upper()`, `sep in s`, `s.split(sep, 1)`,
    `"\n".join(lines)` and `s.split("\n")`. */
module Text {
  import opened Wrappers

  /** Python's `str.isspace()` character set, the characters `str.strip()`
      removes when given no argument. */
  predicate IsSpace(c: char) {
    || c == ' '
    || ('\t' <= c <= '\r')
    || ('\U{1C}' <= c <= '\U{1F}')
    || c == '\U{85}' || c == '\U{A0}' || c == '\U{1680}'
    || ('\U{2000}' <= c <= '\U{200A}')
    || c == '\U{2028}' || c == '\U{2029}' || c == '\U{202F}'
    || c == '\U{205F}' || c == '\U{3000}'
  }

  predicate AllSpace(s: string) {
    forall i :: 0 <= i < |s| ==> IsSpace(s[i])
  }

  /** No whitespace at either end: what `str.strip()` leaves. */
  predicate Trimmed(s: string) {
    s == [] || (!IsSpace(s[0]) && !IsSpace(s[|s| - 1]))
  }

  /* ---------------------------------------------------------------- strip */

  /** `s.lstrip()`: drops the leading whitespace and nothing else. */
  function StripLeading(s: string): (r: string)
    ensures |r| <= |s| && r == s[|s| - |r|..]
    ensures AllSpace(s[..|s| - |r|])
    ensures r == [] || !IsSpace(r[0])
  {
    if |s| > 0 && IsSpace(s[0]) then
      var t := s[1..];
      var r := StripLeading(t);
      var n := |s| - |r|;
      assert t[|t| - |r|..] == s[n..];
      assert AllSpace(s[..n]) by {
        forall i | 0 <= i < n
          ensures IsSpace(s[..n][i])
        {
          if i > 0 {
            assert s[..n][i] == t[..|t| - |r|][i - 1];
          }
        }
      }
      r
    else
      s
  }

  /** `s.rstrip()`: drops the trailing whitespace and nothing else. */
  function StripTrailing(s: string): (r: string)
    ensures |r| <= |s| && r == s[..|r|]
    ensures AllSpace(s[|r|..])
    ensures r == [] || !IsSpace(r[|r| - 1])
  {
    if |s| > 0 && IsSpace(s[|s| - 1]) then
      var t := s[..|s| - 1];
      var r := StripTrailing(t);
      assert t[..|r|] == s[..|r|];
      assert AllSpace(s[|r|..]) by {
        forall i | 0 <= i < |s| - |r|
          ensures IsSpace(s[|r|..][i])
        {
          if i < |s| - 1 - |r| {
            assert s[|r|..][i] == t[|r|..][i];
          }
        }
      }
      r
    else
      s
  }

  /** `s.strip()` */
  function Strip(s: string): (r: string)
    ensures |r| <= |s|
    ensures Trimmed(r)
  {
    StripTrailing(StripLeading(s))
  }

  /** Once the leading whitespace is known to end at `a`, `lstrip` returns the rest. */
  lemma {:induction false} StripLeadingAt(s: string, a: nat)
    requires a <= |s| && AllSpace(s[..a])
    requires a == |s| || !IsSpace(s[a])
    ensures StripLeading(s) == s[a..]
    decreases a
  {
    if a > 0 {
      var t := s[1..];
      assert s[..a][0] == s[0];
      assert t[..a - 1] == s[..a][1..];
      StripLeadingAt(t, a - 1);
      assert t[a - 1..] == s[a..];
    }
  }

  /** Once the trailing whitespace is known to start at `b`, `rstrip` returns the head. */
  lemma {:induction false} StripTrailingAt(s: string, b: nat)
    requires b <= |s| && AllSpace(s[b..])
    requires b == 0 || !IsSpace(s[b - 1])
    ensures StripTrailing(s) == s[..b]
    decreases |s| - b
  {
    if b < |s| {
      var t := s[..|s| - 1];
      assert s[b..][|s| - 1 - b] == s[|s| - 1];
      assert t[b..] == s[b..][..|s| - 1 - b];
      StripTrailingAt(t, b);
      assert t[..b] == s[..b];
    }
  }

  lemma AllSpaceJoin(x: string, y: string)
    requires AllSpace(x) && AllSpace(y)
    ensures AllSpace(x + y)
  {
    assert forall i :: 0 <= i < |x| + |y| ==> (x + y)[i] == (if i < |x| then x[i] else y[i - |x|]);
  }

  /** Reference characterisation of `strip`: whatever lies between a
      whitespace-only head and a whitespace-only tail, and has no whitespace
      at either end, is the result. */
  lemma StripIsTrimmedInfix(s: string, a: nat, b: nat)
    requires a <= b <= |s|
    requires AllSpace(s[..a]) && AllSpace(s[b..])
    requires a == b || (!IsSpace(s[a]) && !IsSpace(s[b - 1]))
    ensures Strip(s) == s[a..b]
  {
    if a == b {
      AllSpaceJoin(s[..a], s[b..]);
      assert s[..a] + s[b..] == s;
      StripLeadingAt(s, |s|);
      assert StripLeading(s) == [];
    } else {
      StripLeadingAt(s, a);
      StripTrailingInside(s, a, b);
    }
  }

  lemma StripTrailingInside(s: string, a: nat, b: nat)
    requires a < b <= |s|
    requires AllSpace(s[b..]) && !IsSpace(s[b - 1])
    ensures StripTrailing(s[a..]) == s[a..b]
  {
    var t := s[a..];
    assert t[b - a..] == s[b..];
    assert t[b - a - 1] == s[b - 1];
    StripTrailingAt(t, b - a);
    assert t[..b - a] == s[a..b];
  }

  /** Stripping twice is stripping once. */
  lemma StripIdempotent(s: string)
    ensures Strip(Strip(s)) == Strip(s)
  {
    var r := Strip(s);
    assert r[..0] == [] && r[|r|..] == [];
    StripIsTrimmedInfix(r, 0, |r|);
    assert r[0..|r|] == r;
  }

  /* ---------------------------------------------------------------- upper */

  /** `str.upper()` on one character: the ASCII letters, plus the two
      non-ASCII letters whose upper case is an ASCII letter (dotless i and
      long s). Other case mappings are outside the model. */
  function UpperChar(c: char): (u: char)
    ensures IsSpace(u) <==> IsSpace(c)
    ensures !('a' <= u <= 'z')
  {
    if 'a' <= c <= 'z' then (c as int - 32) as char
    else if c == '\U{131}' then 'I'
    else if c == '\U{17F}' then 'S'
    else c
  }

  /** `s.upper()` */
  function Upper(s: string): (r: string)
    ensures |r| == |s|
    ensures forall i :: 0 <= i < |s| ==> r[i] == UpperChar(s[i])
  {
    if s == [] then [] else [UpperChar(s[0])] + Upper(s[1..])
  }

  lemma UpperCharIdempotent(c: char)
    ensures UpperChar(UpperChar(c)) == UpperChar(c)
  {
  }

  lemma {:induction false} UpperStripLeading(s: string)
    ensures Upper(StripLeading(s)) == StripLeading(Upper(s))
    decreases |s|
  {
    if |s| > 0 && IsSpace(s[0]) {
      assert Upper(s)[1..] == Upper(s[1..]);
      UpperStripLeading(s[1..]);
    }
  }

  lemma {:induction false} UpperStripTrailing(s: string)
    ensures Upper(StripTrailing(s)) == StripTrailing(Upper(s))
    decreases |s|
  {
    if |s| > 0 && IsSpace(s[|s| - 1]) {
      assert Upper(s)[..|s| - 1] == Upper(s[..|s| - 1]);
      UpperStripTrailing(s[..|s| - 1]);
    }
  }

  /** Upper-casing commutes with stripping, because it maps whitespace to
      whitespace and nothing else to whitespace. */
  lemma UpperStripCommute(s: string)
    ensures Upper(Strip(s)) == Strip(Upper(s))
  {
    UpperStripTrailing(StripLeading(s));
    UpperStripLeading(s);
  }

  /* ---------------------------------------------------- substring search */

  /** `pat` occurs in `s` starting at index `i`. */
  predicate OccursAt(s: string, pat: string, i: int) {
    0 <= i && i + |pat| <= |s| && s[i..i + |pat|] == pat
  }

  /** Python's `pat in s`. */
  predicate Contains(s: string, pat: string) {
    exists i :: 0 <= i <= |s| - |pat| && OccursAt(s, pat, i)
  }

  /** The first occurrence of `pat` in `s` at or after `k`. */
  function FindFrom(s: string, pat: string, k: nat): (r: Option<nat>)
    requires k <= |s|
    ensures r.Some? ==> k <= r.value && OccursAt(s, pat, r.value)
    ensures r.Some? ==> forall j :: k <= j < r.value ==> !OccursAt(s, pat, j)
    ensures r.None? ==> forall j :: k <= j ==> !OccursAt(s, pat, j)
    decreases |s| - k
  {
    if k + |pat| > |s| then None
    else if s[k..k + |pat|] == pat then Some(k)
    else if k == |s| then None
    else FindFrom(s, pat, k + 1)
  }

  /** `s.find(pat)` as an optional index: the first occurrence, if any. */
  function FindFirst(s: string, pat: string): (r: Option<nat>)
    ensures r.Some? ==> OccursAt(s, pat, r.value)
    ensures r.Some? ==> forall j :: 0 <= j < r.value ==> !OccursAt(s, pat, j)
    ensures r.None? <==> !Contains(s, pat)
  {
    FindFrom(s, pat, 0)
  }

  /** Being a piece of is transitive. */
  lemma ContainsTransitive(a: string, b: string, c: string)
    requires Contains(a, b) && Contains(b, c)
    ensures Contains(a, c)
  {
    var i :| 0 <= i <= |a| - |b| && OccursAt(a, b, i);
    var j :| 0 <= j <= |b| - |c| && OccursAt(b, c, j);
    assert a[i..][j..j + |c|] == a[i + j..i + j + |c|];
    assert a[i..][j..j + |c|] == b[j..j + |c|] by {
      assert a[i..][..|b|] == b;
    }
    assert OccursAt(a, c, i + j);
  }

  /** The stripped text is a piece of the original. */
  lemma StripIsPiece(s: string)
    ensures Contains(s, Strip(s))
  {
    var lead := StripLeading(s);
    var r := Strip(s);
    var a := |s| - |lead|;
    assert s[a..a + |r|] == lead[..|r|];
    assert OccursAt(s, r, a);
  }

  /** `s.split(pat, 1)[0]`: everything before the first `pat`, or all of
      `s` when there is none. */
  function Before(s: string, pat: string): (r: string)
    ensures r <= s
    ensures Contains(s, pat) ==> OccursAt(s, pat, |r|)
    ensures !Contains(s, pat) ==> r == s
    ensures forall j :: 0 <= j < |r| ==> !OccursAt(s, pat, j)
    ensures |pat| > 0 ==> !Contains(r, pat)
  {
    match FindFirst(s, pat)
    case Some(i) =>
      var r := s[..i];
      assert forall j :: 0 <= j <= |r| - |pat| && OccursAt(r, pat, j) ==> OccursAt(s, pat, j) by {
        forall j | 0 <= j <= |r| - |pat| && OccursAt(r, pat, j) ensures OccursAt(s, pat, j) {
          assert r[j..j + |pat|] == s[j..j + |pat|];
        }
      }
      r
    case None => s
  }

  /** `s.split(pat, 1)[1]`: everything after the first `pat`. Python
      raises when `pat` is absent, so callers test `pat in s` first. */
  function After(s: string, pat: string): (r: string)
    requires Contains(s, pat)
    ensures |r| + |pat| <= |s| && r == s[|s| - |r|..]
    ensures OccursAt(s, pat, |s| - |r| - |pat|)
    ensures forall j :: 0 <= j < |s| - |r| - |pat| ==> !OccursAt(s, pat, j)
  {
    var i := FindFirst(s, pat).value;
    s[i + |pat|..]
  }

  /* ------------------------------------------------------ join and split */

  /** `sep.join(parts)` with a one-character separator. */
  function Join(parts: seq<string>, sep: char): (r: string)
    ensures |parts| == 1 ==> r == parts[0]
    ensures |parts| > 1 ==> |r| > |parts[0]| && r[..|parts[0]| + 1] == parts[0] + [sep]
  {
    if |parts| == 0 then ""
    else if |parts| == 1 then parts[0]
    else parts[0] + [sep] + Join(parts[1..], sep)
  }

  /** `s.split(sep)` with a one-character separator: always at least one
      part, and no part contains the separator. */
  function Split(s: string, sep: char): (r: seq<string>)
    ensures |r| >= 1
    ensures forall k :: 0 <= k < |r| ==> sep !in r[k]
    decreases |s|
  {
    match FindFirst(s, [sep])
    case None =>
      assert forall i :: 0 <= i < |s| ==> s[i] != sep by {
        forall i | 0 <= i < |s| ensures s[i] != sep {
          assert !OccursAt(s, [sep], i);
          assert s[i..i + 1] == [s[i]];
        }
      }
      [s]
    case Some(i) =>
      assert sep !in s[..i] by {
        forall j | 0 <= j < i ensures s[..i][j] != sep {
          assert !OccursAt(s, [sep], j);
          assert s[j..j + 1] == [s[j]];
        }
      }
      [s[..i]] + Split(s[i + 1..], sep)
  }

  /** Splitting at the first separator, found at `i`. */
  lemma SplitAt(s: string, sep: char, i: nat)
    requires i < |s| && s[i] == sep
    requires forall j :: 0 <= j < i ==> s[j] != sep
    ensures Split(s, sep) == [s[..i]] + Split(s[i + 1..], sep)
  {
    FirstSeparator(s, sep, i);
  }

  /** The first separator of a text is found where it is. */
  lemma FirstSeparator(s: string, sep: char, i: nat)
    requires i < |s| && s[i] == sep
    requires forall j :: 0 <= j < i ==> s[j] != sep
    ensures FindFirst(s, [sep]) == Some(i)
  {
    assert OccursAt(s, [sep], i) by {
      assert s[i..i + 1] == [s[i]];
    }
    forall j | 0 <= j < i
      ensures !OccursAt(s, [sep], j)
    {
      assert s[j..j + 1] == [s[j]];
    }
    var k := FindFirst(s, [sep]);
    assert k.Some? && k.value <= i;
    assert k.value == i;
  }

  /** A text without the separator splits into itself. */
  lemma SplitNone(s: string, sep: char)
    requires sep !in s
    ensures Split(s, sep) == [s]
  {
    forall k | 0 <= k < |s|
      ensures !OccursAt(s, [sep], k)
    {
      assert s[k..k + 1] == [s[k]];
    }
    assert FindFirst(s, [sep]).None?;
  }

  /** Splitting a join gives the parts back when no part contains the
      separator. */
  lemma {:induction false} SplitJoin(parts: seq<string>, sep: char)
    requires |parts| >= 1
    requires forall k :: 0 <= k < |parts| ==> sep !in parts[k]
    ensures Split(Join(parts, sep), sep) == parts
    decreases |parts|
  {
    var p := parts[0];
    if |parts| == 1 {
      SplitNone(p, sep);
    } else {
      var rest := Join(parts[1..], sep);
      var s := p + [sep] + rest;
      assert Join(parts, sep) == s;
      forall j | 0 <= j < |p|
        ensures s[j] != sep
      {
        assert s[j] == p[j];
      }
      assert s[|p|] == sep;
      SplitAt(s, sep, |p|);
      assert s[..|p|] == p;
      assert s[|p| + 1..] == rest;
      SplitJoin(parts[1..], sep);
      assert parts == [p] + parts[1..];
    }
  }
}

=== FILE: wrappers.dfy ===
/** Python's optional values: a key that may be missing, a call that may
    return None. */
module Wrappers {
  datatype Option<T> = None | Some(value: T)

  /** `x if x is not None else fallback` */
  function OrElse<T>(o: Option<T>, fallback: T): T {
    if o.Some? then o.value else fallback
  }
}
